=== FILE: README.md ===
# CareerMatch decision rules in Dafny

CareerMatch is a React Native career-guidance app. Its screens are mostly
layout, but a handful of pure rules decide what the user sees:

- the career quiz scores eight answers into four categories and picks a career;
- the "test" screen maps answer values to a career by a signal chain;
- the course screens filter a fixed catalogue by the stored career and mark
  courses as completed;
- the recommendations screen reads the stored career and shows its list;
- the dashboard counts pending actions and derives the user's first name;
- the login screen checks the e-mail pattern, the password length and a
  fixed user table;
- three profile validators (the profile form's own check, and the two
  validation screens) trim, split and bound the profile fields, and produce a
  normalised record;
- the notification badge hides a zero count and caps large counts at "99+".

This project models those rules as pure Dafny functions over immutable
datatypes and proves what they promise. The modules follow the screens:

| module | screen / role |
|---|---|
| `Wrappers`, `Text`, `Seqs` | `Option`; JavaScript whitespace, `trim`, UTF-16 `length`, decimal text; sequence facts |
| `Skills` | `normalizeSkills` (split on `,` or `;`, trim, drop empties) and the `join(', ')` that stores it |
| `Profile` | what the validators share: the draft, the five fields, the issues, the normalised record, the `checks` list |
| `ValidateProfileScreen`, `ValidateProfile`, `ProfileScreen` | the three validators, the area picker and `onUpdate` |
| `Answers` | the answers object (`{...prev, [q]: key}`) as an insertion-ordered list |
| `Quiz`, `TestScreen` | the two career tests |
| `Careers`, `Courses`, `CourseList`, `MicroCourses`, `Recs` | recommendation table, catalogue filter, completing a course |
| `Dashboard`, `Login`, `NotificationBadge` | the remaining screens' rules |

JavaScript semantics are written out where they matter:

- `trim` and the regex class `\s` use the same whitespace set (`Text.IsSpace`).
- `string.length` counts UTF-16 code units (`Text.Utf16Length`).
- `if (stored)` treats the empty string as absent.
- Object spread keeps the first insertion position of a key.
- The stable descending sort followed by `sorted[0]` picks the first maximum
  in the declared order `software, ux, data, gestao`.
- Progress values are mathematical reals.

The route named `ValidateProfile` is registered with the
`ValidateProfileScreen` component (src/navigation/RootNavigation.tsx:162-163).
So when the profile form redirects, it reaches the validator that also
rejects progress under 10%. `ProfileScreen.RedirectShowsProblem` is stated
against that validator.

Three behaviours of the code worth knowing when reading the model:

- more than five areas of interest is an error in both validation screens,
  even though `normalized` also keeps only the first five;
- skills are not de-duplicated;
- a report is `ok` exactly when its error record is empty, while the
  `ValidateProfile` summary shows VALIDADO when no *critical* check fails.

## Model

| member | source | states |
|---|---|---|
| Text.Trim | src/screens/ValidateProfileScreen.tsx:23-24 | the result is the input with its leading and trailing whitespace removed: a trimmed slice of the input, everything before it and everything after it whitespace, empty exactly for all-whitespace input, and unchanged on trimmed input |
| Text.TrimBetweenSpaces | src/screens/ValidateProfileScreen.tsx:23-24 | conversely, any trimmed non-empty text wrapped in whitespace on both sides trims to exactly that text, so the decomposition `Trim` returns is the only one |
| Text.TrimAfterSpaces | src/screens/ValidateProfileScreen.tsx:18 | trimming whitespace followed by a trimmed non-empty word gives the word back |
| Text.Utf16Length | src/screens/ValidateProfileScreen.tsx:34-36 | a string's JavaScript length lies between its code-point count and twice that, equals the count when no character is outside the Basic Multilingual Plane, and is 2 for a single astral character and 1 for any other |
| Text.Utf16LengthAppend | src/screens/ValidateProfileScreen.tsx:34-36 | the length of a concatenation is the sum of the lengths |
| Text.Utf16LengthCount | src/screens/ValidateProfileScreen.tsx:34-36 | the length of any string is its character count plus the number of its characters outside the Basic Multilingual Plane |
| Text.LetterWord | src/screens/ValidateProfileScreen.tsx:23-24 | an ASCII-letter word has no whitespace, is unchanged by trimming, and its JavaScript length is its character count |
| Text.NatToString | src/components/NotificationBadge.tsx:18 | `toString` of a natural number is non-empty decimal text without a leading zero, with one digit below 10 and at most two below 100 |
| Text.ParseNatToString | src/components/NotificationBadge.tsx:18 | reading back the decimal text of a number gives the number (round trip) |
| Text.IntToString | src/components/NotificationBadge.tsx:18 | `toString` of an integer is the decimal text of its magnitude without leading zeros, prefixed by '-' when negative, and reads back as the magnitude |
| Text.NatToStringUnique | src/components/NotificationBadge.tsx:18 | every digit string without a leading zero is the `toString` of its value, so the decimal text of a number is the only such text for it |
| Text.DigitRoundTrip | src/components/NotificationBadge.tsx:18 | each digit character reads back as the digit it was made from |
| Skills.Split | src/screens/ValidateProfileScreen.tsx:17 | `split(/,\|;/)` yields one more piece than the input has separators, no piece contains a separator, the pieces joined back with the input's separators in order give the input, and a separator-free string splits to itself |
| Skills.SplitAfterPiece | src/screens/ValidateProfileScreen.tsx:17 | splitting a separator-free piece followed by a comma or semicolon gives that piece and then the split of the rest |
| Skills.SplitUnique | src/screens/ValidateProfileScreen.tsx:17 | any separator-free pieces that reassemble the input around its separators are exactly the split, so the split is determined by the input |
| Skills.TrimPieces | src/screens/ValidateProfileScreen.tsx:18-19 | `map(trim).filter(Boolean)` gives exactly the trimmed pieces with the empty ones dropped, in order, all of them tokens (non-empty, trimmed, separator-free) |
| Skills.Normalize | src/screens/ValidateProfileScreen.tsx:15-20 | `normalizeSkills` returns exactly the trimmed non-empty pieces of the split, in order, all of them tokens, and nothing for blank input |
| Skills.NormalizeInterleave | src/screens/ValidateProfileScreen.tsx:15-20 | for any separator-free pieces joined by any commas and semicolons, normalising gives those pieces trimmed, empty ones dropped, in order |
| Skills.MixedSeparatorsExample | src/screens/ValidateProfileScreen.tsx:15-20 | "a,, b ;c" normalises to ["a", "b", "c"]: both separators split, the empty piece is dropped and the padding trimmed |
| Seqs.Without | src/screens/ValidateProfileScreen.tsx:19 | filtering out one value keeps every other entry as often as it occurs and in order, drops every copy of the value, keeps a list without repeats without repeats, and changes nothing when the value is absent |
| Skills.NormalizeJoin | src/screens/ValidateProfileScreen.tsx:77 | normalising the `join(', ')` of a token list gives the list back |
| Skills.NormalizeRoundTrip | src/screens/ValidateProfileScreen.tsx:77 | the stored skills text normalises to the same list as the raw input did, so re-validating the stored record sees the same skills |
| Skills.NormalizeJoinAfterSpaces | src/screens/ValidateProfileScreen.tsx:15-20 | leading whitespace before a joined token list does not change what normalisation returns |
| Skills.Join | src/screens/ValidateProfileScreen.tsx:77 | `join(', ')` starts with the first token; for separator-free tokens the text holds exactly one separator, a comma, between each two tokens and none otherwise |
| Profile.Collect | src/screens/ValidateProfileScreen.tsx:29-70 | the `errors` record has a key for a field exactly when that field reported a problem, holding that problem |
| Profile.NoErrorKeys | src/screens/ValidateProfileScreen.tsx:72 | an error record is empty exactly when none of the five field keys is present |
| Profile.NameIssue | src/screens/ValidateProfileScreen.tsx:32-38 | a trimmed name fails exactly when shorter than 2 or longer than 50 code units; it is reported missing exactly when empty, too short exactly when non-empty and under 2, too long exactly above 50 |
| Profile.RoleIssue | src/screens/ValidateProfileScreen.tsx:41-45 | a trimmed role fails exactly when shorter than 3 code units; it is reported missing exactly when empty and too short exactly when non-empty and under 3 |
| Profile.SkillsIssue | src/screens/ValidateProfileScreen.tsx:48-52 | a skill count fails exactly when 0 or above 10; it is reported missing exactly when 0 and too many exactly above 10 |
| Profile.AreasIssue | src/screens/ValidateProfileScreen.tsx:55-59 | an area count fails exactly when 0 or above 5; it is reported missing exactly when 0 and too many exactly above 5 |
| Profile.Clamp | src/screens/ValidateProfileScreen.tsx:78 | `Math.min(1, Math.max(floor, p))` lies in [floor, 1], keeps in-range values and maps values below or above to the nearer bound |
| Profile.FirstFive | src/screens/ValidateProfileScreen.tsx:79 | `slice(0, 5)` is a prefix of at most five areas, all of them when there are at most five |
| Profile.NormalizedSkills | src/screens/ValidateProfileScreen.tsx:77 | the stored skills text normalises to the same skill list as the raw text and is in canonical form: the `join(', ')` of its own skills, which together pin it to the joined skill list |
| Profile.Normalized | src/screens/ValidateProfileScreen.tsx:74-80 | the normalised record holds the trimmed texts, the skills text `join(', ')` of the normalised skills, progress `Math.min(1, Math.max(0.1, p))` (0.1 when missing, so always in [0.1, 1] and unchanged when already in range) and a prefix of at most five areas |
| Profile.RenormalizeRecord | src/screens/ValidateProfileScreen.tsx:74-80 | normalising an already normalised record changes nothing (idempotence) |
| Profile.ChecksFor | src/screens/ValidateProfileScreen.tsx:98-129 | each check names its field, passes exactly when the field has no error, and is critical exactly when the field is not progress |
| Profile.CountFailedFor | src/screens/ValidateProfileScreen.tsx:132 | over distinct fields, the number of failing checks is the number of those fields with an error |
| Profile.CountCriticalFor | src/screens/ValidateProfileScreen.tsx:131 | the critical failures are the failures once the progress error is dropped |
| Profile.ErrorKeys | src/screens/ValidateProfileScreen.tsx:98-129 | every key of an error record is one of the five checked fields |
| Profile.CheckCounts | src/screens/ValidateProfileScreen.tsx:131-132 | the failed count equals the number of error keys, the critical count equals the non-progress error keys, and each is zero exactly when the matching key set is empty |
| ValidateProfileScreen.ProgressIssue | src/screens/ValidateProfileScreen.tsx:62-70 | a present progress fails exactly outside [0.1, 1]; it is "too low" exactly in [0, 0.1); a missing progress never fails |
| ValidateProfileScreen.Errors | src/screens/ValidateProfileScreen.tsx:22-70 | each field is in the error record exactly when its rule is broken (name length 2..50, role at least 3, 1..10 skills, 1..5 areas, progress in [0.1, 1] when present), and holds the issue that field's rule reports |
| ValidateProfileScreen.Validate | src/screens/ValidateProfileScreen.tsx:22-83 | `validateProfile` reports the field rules above with each field's issue, is ok exactly when the error record is empty, and returns the normalised record whatever the errors: trimmed texts, the skills joined with ", ", progress clamped to [0.1, 1] (0.1 when missing), and `slice(0, 5)` of the areas (all of them when five or fewer) |
| ValidateProfileScreen.Renormalize | src/screens/ValidateProfileScreen.tsx:74-80 | validating the normalised record returns the same record and no error the original draft did not already have |
| ValidateProfileScreen.RenormalizeErrors | src/screens/ValidateProfileScreen.tsx:22-70 | the normalised record breaks no rule the draft did not break |
| ValidateProfileScreen.Summarize | src/screens/ValidateProfileScreen.tsx:131-206 | the status is validated exactly when there are no errors; the counters equal the error keys and the non-progress error keys; the button is labelled 'apply and save' when there are no errors, 'save with warnings' when progress is the only error, and 'apply corrections' when a critical field fails; whichever label is shown, pressing saves the normalised record (see Press) |
| ValidateProfileScreen.Press | src/screens/ValidateProfileScreen.tsx:134-143 | `applyAndSave` stores the normalised record whatever the errors; the alert reports adjustments exactly when the button read 'apply corrections', and then counts the failed critical checks |
| ValidateProfileScreen.CriticalErrorsStillSave | src/screens/ValidateProfileScreen.tsx:131-143 | a draft failing a critical check is still saved as its normalised record, with the adjustments alert |
| ValidateProfileScreen.ProgressOnlyIsAdvisory | src/screens/ValidateProfileScreen.tsx:123-131 | a draft whose only error is progress has no critical failure and may be saved with warnings, yet is not ok |
| ValidateProfile.ProgressIssue | src/screens/ValidateProfile.tsx:58-61 | a present progress fails exactly outside [0, 1], as out of range; a missing progress never fails |
| ValidateProfile.Errors | src/screens/ValidateProfile.tsx:43-61 | the same field rules and issues as the other validation screen, except that progress only has to lie in [0, 1] and fails as out of range |
| ValidateProfile.Validate | src/screens/ValidateProfile.tsx:34-74 | the report lists those field rules with each field's issue and is ok exactly when the error record is empty; the normalised record holds the trimmed texts, the skills joined with ", ", progress clamped to [0.1, 1] (0.1 when missing) and `slice(0, 5)` of the areas (all of them when five or fewer) |
| ValidateProfile.StatusOf | src/screens/ValidateProfile.tsx:99-144 | the summary shows VALIDADO exactly when no field other than progress has an error |
| ValidateProfile.SameNormalization | src/screens/ValidateProfile.tsx:65-71 | both validation screens produce the same normalised record for every draft |
| ValidateProfile.SameCriticalErrors | src/screens/ValidateProfile.tsx:43-56 | both validation screens fail the same non-progress fields for every draft |
| ValidateProfile.StrictOkImpliesOk | src/screens/ValidateProfile.tsx:58-63 | a draft the floor-checking screen accepts is accepted here too |
| ValidateProfile.NoErrorsHere | src/screens/ValidateProfile.tsx:43-63 | a draft meeting the shared field rules with progress in [0, 1] has no error here |
| ValidateProfile.OnlyProgressThere | src/screens/ValidateProfileScreen.tsx:62-70 | a draft meeting the shared field rules with progress in [0, 0.1) fails only progress on the floor-checking screen |
| ValidateProfile.ProgressFloorDisagreement | src/screens/ValidateProfile.tsx:58-61 | for any valid draft with progress in [0, 0.1), this screen says ok and VALIDADO while the other reports exactly a progress error |
| ValidateProfile.LetterDraftValid | src/screens/ValidateProfile.tsx:43-56 | an ASCII-letter name of 2..50 letters, role of at least 3, one skill word and one area meet the shared field rules |
| ValidateProfile.LowProgressDisagreement | src/screens/ValidateProfile.tsx:58-61 | the concrete draft ("Ana", "Dev", "Java", progress 0.05, one area) passes here and fails only on progress on the other screen |
| ProfileScreen.Errors | src/screens/ProfileScreen.tsx:30-44 | the form's check reports a field exactly when its trimmed text is empty, the skills normalise to nothing, no area is picked, or a present progress lies outside [0, 1], with the matching issue |
| ProfileScreen.Normalized | src/screens/ProfileScreen.tsx:47-53 | the form stores trimmed texts, the normalised skills joined with ", ", progress `Math.min(1, Math.max(0, p))` (so in [0, 1], kept when in range, absent when absent) and the areas unchanged |
| ProfileScreen.Validate | src/screens/ProfileScreen.tsx:30-55 | the form is ok exactly when name, role, skills and areas are non-empty and progress, if present, lies in [0, 1]; its errors and normalised record are the form's own |
| ProfileScreen.LenientOkImpliesOk | src/screens/ProfileScreen.tsx:30-46 | a form the `ValidateProfile` screen accepts is accepted by the form's own check |
| ProfileScreen.StrictOkImpliesOk | src/screens/ProfileScreen.tsx:30-46 | a form the `ValidateProfileScreen` accepts is accepted by the form's own check |
| ProfileScreen.OneLetterNameDisagreement | src/screens/ProfileScreen.tsx:38 | a one-letter name passes the form's check but fails the validation screen's minimum of two |
| ProfileScreen.AddArea | src/screens/ProfileScreen.tsx:80-85 | adding appends the selected area exactly when it is non-empty and not yet chosen, then clears the selection; otherwise nothing changes; no duplicate is ever introduced |
| ProfileScreen.RemoveArea | src/screens/ProfileScreen.tsx:87-89 | removing keeps every other area in order, drops every copy of the given one, and leaves the list alone when it is absent |
| ProfileScreen.RemoveUndoesAdd | src/screens/ProfileScreen.tsx:80-89 | removing an area just added restores the previous list |
| ProfileScreen.RemoveAppended | src/screens/ProfileScreen.tsx:87-89 | removing an area appended to a list that lacked it gives the list back |
| ProfileScreen.PickerInvariant | src/screens/ProfileScreen.tsx:8-21 | adding from the picker options and removing keep the chosen areas distinct picker options, so there are never more than twelve |
| ProfileScreen.OnUpdate | src/screens/ProfileScreen.tsx:91-101 | the profile is saved exactly when the form's check passes, and what is saved is the form's normalised record of the current state (trimmed name, the picked areas, the form's progress value); otherwise the raw draft is passed to the validation route |
| ProfileScreen.RedirectShowsProblem | src/screens/ProfileScreen.tsx:98-99 | every redirected draft fails on the validation screen it reaches, whose status is pending |
| Answers.Lookup | src/screens/Quiz.tsx:111-116 | a question has an answer exactly when some entry names it, and the answer found is one of its entries |
| Answers.Values | src/screens/Quiz.tsx:121 | `Object.values` lists the chosen options in entry order |
| Answers.Select | src/screens/Quiz.tsx:111-116 | selecting records the option for the question, leaves every other question's answer unchanged, keeps every existing question in its place, and appends an entry only for a new question |
| TestScreen.SelectSoftwareWins | src/screens/TestScreen.tsx:45-56 | the career test's `select` records the key, so once any question is answered with a software key the submitted result is software engineering |
| Answers.SelectKeepsDistinct | src/screens/Quiz.tsx:112-115 | selecting never creates a second entry for the same question |
| Careers.RecommendedTitles | src/screens/Courses.tsx:93 | the recommended list is non-empty exactly for a career the table knows, and then holds at least four titles |
| Careers.TableListsNonEmpty | src/screens/Courses.tsx:49-81 | every career in the table has at least four recommended titles |
| Quiz.Point | src/screens/Quiz.tsx:168-173 | one answer adds a point to the category `scoringMap` gives it, and nothing otherwise |
| Quiz.TallyTotal | src/screens/Quiz.tsx:168-173 | the scores sum to at most the number of answers |
| Quiz.TallyCounts | src/screens/Quiz.tsx:168-173 | a category's score is the number of answers that `scoringMap` maps to it |
| Quiz.TallyAppend | src/screens/Quiz.tsx:168-173 | scoring two answer lists one after the other adds their scores |
| Quiz.TallyPermutation | src/screens/Quiz.tsx:168-173 | the scores do not depend on the order of the answers |
| Quiz.Best | src/screens/Quiz.tsx:175-176 | the chosen category has the highest score, and every category declared before it scores strictly less (ties go to the earlier one, as the stable sort keeps them) |
| Quiz.BestUnique | src/screens/Quiz.tsx:175-176 | a category that is maximal and strictly above all earlier ones is the one chosen |
| Quiz.Label | src/screens/Quiz.tsx:178-185 | each category's career name is a key of the recommendation table |
| Quiz.LabelInjective | src/screens/Quiz.tsx:178-185 | different categories give different career names |
| Quiz.Scoring | src/screens/Quiz.tsx:121-173 | the scores of the answers count, per category, the answers mapped to it, and sum to at most the number of answers |
| Quiz.Result | src/screens/Quiz.tsx:118-185 | the stored result is one of the four quiz careers, has recommendations, and is the label of a winning category of the scores |
| Quiz.EmptyAnswersGiveSoftware | src/screens/Quiz.tsx:175-180 | with no answers every score ties at zero and the result is "Engenharia de Software" |
| Quiz.UnanimousAnswers | src/screens/Quiz.tsx:168-185 | when every scored answer is for one category and at least one answer is, that category's career is the result |
| Quiz.OptionsAreScored | src/screens/Quiz.tsx:15-166 | every option of the eight questions is a key of `scoringMap`, scoring for the category its key names |
| TestScreen.Heuristic | src/screens/TestScreen.tsx:53-65 | the result is software engineering exactly when a software signal is present, and each later career exactly when its signal is present and no earlier one is; otherwise systems analysis |
| TestScreen.Submit | src/screens/TestScreen.tsx:49-66 | the stored result is the heuristic over `Object.values(answers)`: software engineering exactly when some answer picked a software key, each later career exactly when some answer picked its key and none picked an earlier one's, systems analysis exactly when no answer picked any signal key (so also when nothing was answered) |
| TestScreen.PickedValues | src/screens/TestScreen.tsx:53-55 | the answer values contain a signal exactly when some answer picked it |
| TestScreen.OnlyValueSetMatters | src/screens/TestScreen.tsx:53-65 | two answer lists with the same values give the same result, whatever the order or repetitions |
| TestScreen.SoftwareDominates | src/screens/TestScreen.tsx:55-56 | a software signal anywhere wins whatever else is answered |
| CourseList.Mark | src/screens/Courses.tsx:124-128 | a course is marked done exactly when it was done or has the pressed id; nothing else about it changes |
| CourseList.Complete | src/screens/Courses.tsx:123-128 | completing maps every course through that rule, keeping length and order |
| CourseList.CompleteIdempotent | src/screens/Courses.tsx:123-128 | completing the same id twice is the same as once |
| CourseList.CompleteUnknown | src/screens/Courses.tsx:123-128 | completing an id no course has changes nothing |
| CourseList.CompleteCommutes | src/screens/Courses.tsx:123-128 | completing two ids gives the same list in either order |
| CourseList.CompleteCountsOne | src/screens/Courses.tsx:123-128 | completing an unfinished course with a unique id adds exactly one finished course |
| CourseList.Find | src/screens/Courses.tsx:130 | `find` returns the first course with the id, and nothing exactly when no course has it |
| CourseList.Press | src/screens/Courses.tsx:123-151 | pressing a finished card does nothing; otherwise the course is completed, an XP is announced exactly when some course in the list before the update has the id, and it is the XP of the first such course |
| CourseList.PressFinishesItem | src/screens/Courses.tsx:123-151 | with distinct ids, pressing an unfinished card announces its own XP and marks exactly its entry done |
| Courses.Filter | src/screens/Courses.tsx:97-105 | the filter keeps exactly the catalogue courses passing the rule, in catalogue order |
| Courses.Load | src/screens/Courses.tsx:87-116 | no stored career (or an empty one) lists the whole catalogue; otherwise the career is shown and the listing is a non-empty, ordered selection of exactly the courses the rule keeps |
| Courses.GeneralCourseListed | src/screens/Courses.tsx:97-109 | the filter is never empty, because general courses always pass, so the fallback to the whole catalogue never happens |
| Courses.ListingForTableCareer | src/screens/Courses.tsx:97-100 | for a career in the table, a course is listed exactly when its title is recommended for it or it is general |
| Courses.CatalogueIdsDistinct | src/screens/Courses.tsx:21-47 | no two catalogue courses share an id, so completing a course marks only that course |
| Courses.RecommendedTitlesExist | src/screens/Courses.tsx:21-81 | every title the recommendation table names is a catalogue course |
| MicroCourses.FinishedCardIsInert | src/screens/MicroCoursesScreen.tsx:20-54 | pressing the finished first card changes nothing and announces nothing |
| MicroCourses.SecondCardCompletes | src/screens/MicroCoursesScreen.tsx:20-54 | pressing the second card announces 100 XP and marks only it done |
| MicroCourses.AllFinishedIsStable | src/screens/MicroCoursesScreen.tsx:26-54 | once every card is done, no press changes anything |
| Recs.Load | src/screens/Recs.tsx:45-61 | loading always ends the spinner; a stored career is shown with its table list (empty for an unknown career); no career or a failed read clears the career and keeps the previous list |
| Recs.LoadShowsCareer | src/screens/Recs.tsx:45-68 | after a load, a career is shown exactly when the read produced a non-empty value |
| Recs.InitialShowsNothing | src/screens/Recs.tsx:41-68 | before the first load nothing is shown: `hasCareer` is false while the first load is pending |
| Recs.QuizResultHasRecommendations | src/screens/Recs.tsx:6-61 | whatever the quiz stores, the recommendations screen shows a non-empty list |
| Recs.TestResultHasRecommendations | src/screens/Recs.tsx:6-61 | whatever the test screen stores, the recommendations screen shows a non-empty list |
| Dashboard.Load | src/screens/DashboardScreen.tsx:24-52 | the dashboard shows the stored progress (0 when missing), the number of saved courses, and as pending actions the number of the three conditions that hold, at most three and zero exactly when none holds |
| Dashboard.PendingCount | src/screens/DashboardScreen.tsx:43-48 | the pending count adds one for each of test not taken, profile incomplete and no saved course |
| Dashboard.AnsweringRemovesOne | src/screens/DashboardScreen.tsx:44 | storing a non-empty answer set removes exactly one pending action when the test was pending |
| Dashboard.SavingRemovesOne | src/screens/DashboardScreen.tsx:40-46 | saving a non-empty course list removes exactly one pending action and sets the completed count |
| Dashboard.FirstWord | src/screens/DashboardScreen.tsx:81 | `split(' ')[0]` is the prefix before the first space |
| Dashboard.UserName | src/screens/DashboardScreen.tsx:81 | the shown name is never empty: the stored name's first word, or "Usuário" when there is no name, an empty name, or one starting with a space |
| Dashboard.FirstNameShown | src/screens/DashboardScreen.tsx:81 | a stored "first rest" name shows as "first" |
| Dashboard.FirstWordOf | src/screens/DashboardScreen.tsx:81 | the first word of "first rest" is "first" |
| Login.EmailCheckMatchesPattern | src/screens/LoginScreen.tsx:25-28 | `validateEmail` holds exactly when the text matches `^[^\s@]+@[^\s@]+\.[^\s@]+$` |
| Login.CheckImpliesPattern | src/screens/LoginScreen.tsx:26 | every e-mail that `validateEmail` accepts matches the pattern |
| Login.PatternImpliesCheck | src/screens/LoginScreen.tsx:26 | every text the pattern matches passes `validateEmail` |
| Login.PasswordLength | src/screens/LoginScreen.tsx:30-32 | six or more code points pass the password check, fewer than three fail it, and without astral characters it passes exactly from six |
| Login.FindUser | src/screens/LoginScreen.tsx:53-55 | the lookup finds the first table user with exactly that e-mail and password, and nothing exactly when there is none |
| Login.OnLogin | src/screens/LoginScreen.tsx:34-76 | the outcome is the first failing check (missing field, invalid e-mail, short password), then a login exactly when the table has that pair, naming that user |
| Login.UsersPassChecks | src/screens/LoginScreen.tsx:14-32 | every user in the table passes the e-mail and password checks, so each can log in |
| Login.UserEmailsDistinct | src/screens/LoginScreen.tsx:14-18 | no two table users share an e-mail |
| NotificationBadge.DisplayCount | src/components/NotificationBadge.tsx:18 | counts above 99 show "99+", counts 0..99 show exactly their decimal text (one or two digits, no leading zero), negative counts show '-' followed by the decimal text of the magnitude |
| NotificationBadge.ComponentBadge | src/components/NotificationBadge.tsx:11-18 | the badge is hidden exactly for count 0, uses the given size or 18, and shows the display text of the count: "99+" above 99, the decimal text otherwise, '-' and the magnitude for a negative count |
| NotificationBadge.Shown | src/screens/NotificationBadge.tsx:16 | a number child renders as its `toString`: the decimal text for a non-negative number, '-' and the magnitude's decimal text for a negative one; a text child as itself |
| NotificationBadge.ScreenBadge | src/screens/NotificationBadge.tsx:10-16 | the screen's badge is hidden exactly for count 0, uses the given size or 18, and shows "99+" above 99 and the number otherwise |
| NotificationBadge.SameBadge | src/screens/NotificationBadge.tsx:10-16 | the two badge components show the same text at the same size for every count |
| NotificationBadge.ShortDecimal | src/components/NotificationBadge.tsx:18 | a non-negative count up to 99 has one or two digits |

## Left out

- Storage, navigation, timers and rendering; alerts only by their kind. The model takes as
  parameters the values read from AsyncStorage and the route. It returns
  what would be stored, shown or navigated to.
- `JSON.parse`: stored values arrive already parsed. Malformed JSON, and
  values of the wrong type, are not modelled. This includes the
  `typeof progress !== 'number'` branch of both validation screens.
- Floating point: progress is a real number, so NaN, infinities and
  rounding are out. Badge counts are integers. `Math.round` in the
  progress message and badge widths are display-only.
- Error and alert message texts are reduced to the `Issue` or `Alert` kind
  they report.
- The profile form's initial load (`p.name || name`, …) and its default
  field values are not modelled. `onUpdate` is modelled from whatever state
  the form holds.
- Keys inherited from `Object.prototype`, such as `scoringMap["constructor"]`,
  are not modelled. An answer value equal to such a name is treated as
  unscored.
- The home, splash, progress, objective and drawer screens, the share and
  notification services, and the theme are not part of this model. They
  hold no decision rules.
- Login.PasswordLength: JavaScript's `length` counts UTF-16 code units. The
  model counts them exactly (`Text.Utf16LengthCount`), but this contract only
  pins the threshold for text without astral characters.
- Dashboard.Load: the `try`/`catch` around the reads is not modelled. A
  failed read leaves the previous figures on screen.

=== FILE: answers.dfy ===
/**
 * The quiz answers as the screens hold them: a JavaScript object from
 * question id to option key. Its entries keep insertion order and its keys
 * are distinct; `Object.values` lists the options in that order.
 */
module Answers {
  import opened Wrappers

  datatype Entry = Entry(question: string, option: string)

  type AnswerList = seq<Entry>

  predicate DistinctQuestions(a: AnswerList) {
    forall i, j :: 0 <= i < j < |a| ==> a[i].question != a[j].question
  }

  /** `answers[question]`. */
  function Lookup(a: AnswerList, question: string): (o: Option<string>)
    ensures o.Some? <==> exists i :: 0 <= i < |a| && a[i].question == question
    ensures o.Some? ==> exists i :: 0 <= i < |a| && a[i] == Entry(question, o.value)
  {
    if |a| == 0 then None
    else if a[0].question == question then Some(a[0].option)
    else
      var o := Lookup(a[1..], question);
      assert forall i :: 0 < i < |a| ==> a[i] == a[1..][i - 1];
      o
  }

  /** `Object.values(answers)`. */
  function Values(a: AnswerList): (vs: seq<string>)
    ensures |vs| == |a|
    ensures forall i :: 0 <= i < |a| ==> vs[i] == a[i].option
  {
    if |a| == 0 then [] else [a[0].option] + Values(a[1..])
  }

  /**
   * `{ ...prev, [question]: option }`: an existing key keeps its place and takes
   * the new option, a new key goes last.
   */
  function Select(a: AnswerList, question: string, option: string): (r: AnswerList)
    ensures Lookup(r, question) == Some(option)
    ensures forall q :: q != question ==> Lookup(r, q) == Lookup(a, q)
    ensures |r| == if Lookup(a, question).Some? then |a| else |a| + 1
    ensures forall i :: 0 <= i < |a| ==> r[i].question == a[i].question
    ensures Lookup(a, question).None? ==> r == a + [Entry(question, option)]
  {
    if |a| == 0 then [Entry(question, option)]
    else if a[0].question == question then [Entry(question, option)] + a[1..]
    else
      var rest := Select(a[1..], question, option);
      LookupCons(a[0], rest);
      LookupCons(a[0], a[1..]);
      AppendStep(a, rest, Entry(question, option));
      [a[0]] + rest
  }

  /** Looking up in a list with `h` in front: `h` first, then the rest. */
  lemma LookupCons(h: Entry, rest: AnswerList)
    ensures forall q :: Lookup([h] + rest, q) == if h.question == q then Some(h.option) else Lookup(rest, q)
  {
    assert ([h] + rest)[1..] == rest;
  }

  /** The key positions and the appended entry carry over to `h` in front. */
  lemma AppendStep(a: AnswerList, rest: AnswerList, e: Entry)
    requires |a| > 0 && |rest| >= |a| - 1
    requires forall i :: 0 <= i < |a| - 1 ==> rest[i].question == a[1..][i].question
    ensures forall i :: 0 <= i < |a| ==> ([a[0]] + rest)[i].question == a[i].question
    ensures rest == a[1..] + [e] ==> [a[0]] + rest == a + [e]
  {
    forall i | 0 < i < |a| ensures ([a[0]] + rest)[i].question == a[i].question {
      assert ([a[0]] + rest)[i] == rest[i - 1];
      assert a[1..][i - 1] == a[i];
    }
    if rest == a[1..] + [e] {
      assert a == [a[0]] + a[1..];
    }
  }

  /** Selecting never creates a second entry for a question. */
  lemma SelectKeepsDistinct(a: AnswerList, question: string, option: string)
    requires DistinctQuestions(a)
    ensures DistinctQuestions(Select(a, question, option))
  {
    var r := Select(a, question, option);
    if Lookup(a, question).Some? {
      SameKeysDistinct(a, r);
    } else {
      AppendNewDistinct(a, Entry(question, option));
    }
  }

  /** A list with the same question at every position as a repeat-free list is repeat-free. */
  lemma SameKeysDistinct(a: AnswerList, r: AnswerList)
    requires DistinctQuestions(a) && |r| == |a|
    requires forall i :: 0 <= i < |a| ==> r[i].question == a[i].question
    ensures DistinctQuestions(r)
  {
    forall i, j | 0 <= i < j < |r| ensures r[i].question != r[j].question {
      assert a[i].question != a[j].question;
    }
  }

  /** Appending an entry for a question not yet answered keeps the questions distinct. */
  lemma AppendNewDistinct(a: AnswerList, e: Entry)
    requires DistinctQuestions(a) && Lookup(a, e.question).None?
    ensures DistinctQuestions(a + [e])
  {
    var r := a + [e];
    forall i, j | 0 <= i < j < |r| ensures r[i].question != r[j].question {
      assert r[i] == a[i];
      if j < |a| {
        assert r[j] == a[j];
      }
    }
  }
}

=== FILE: careers.dfy ===
/**
 * The career labels the two quizzes store under "result", and the table of
 * recommended course titles per career that the courses screen and the
 * recommendations screen each declare (identically).
 */
module Careers {

  const SoftwareEngineering := "Engenharia de Software"
  const UxDesign := "UX/UI Design"
  const DataScience := "Data Science"
  const ProjectManagement := "Gestão de Projetos"
  const SystemsAnalysis := "Análise de Sistemas"

  /** `COURSE_RECOMMENDATIONS`. */
  const Recommendations: map<string, seq<string>> := map[
    SoftwareEngineering := [
      "Git e GitHub em 30 min",
      "Lógica de Programação",
      "Ciclo CI/CD em 15 minutos",
      "Introdução ao JavaScript",
      "APIs para Iniciantes"],
    UxDesign := [
      "Fundamentos de UX Design",
      "UI para iniciantes: Tipografia",
      "Criando Wireframes Rápidos",
      "Comunicação Empática"],
    DataScience := [
      "Fundamentos de Machine Learning",
      "Pensamento Analítico para Dados",
      "Introdução à IA Generativa",
      "Lógica de Programação"],
    ProjectManagement := [
      "Introdução à Gestão de Projetos",
      "Métodos Ágeis e Scrum",
      "Comunicação Empática",
      "Resolução de Problemas"],
    SystemsAnalysis := [
      "Lógica de Programação",
      "Pensamento Analítico para Dados",
      "Git e GitHub em 30 min",
      "APIs para Iniciantes"]]

  /** `COURSE_RECOMMENDATIONS[career] ?? []`. */
  function RecommendedTitles(career: string): (titles: seq<string>)
    ensures |titles| > 0 <==> career in Recommendations
    ensures |titles| > 0 ==> |titles| >= 4
  {
    TableListsNonEmpty();
    if career in Recommendations then Recommendations[career] else []
  }

  /** Every career of the table has a non-empty list. */
  lemma TableListsNonEmpty()
    ensures forall k :: k in Recommendations ==> |Recommendations[k]| >= 4
  {
  }
}

=== FILE: course_list.dfy ===
/**
 * A list of course cards and what pressing one does, shared by the course
 * catalogue screen and the micro-courses screen (their `handleCompleteCourse`
 * and press handlers are the same code).
 */
module CourseList {
  import opened Wrappers

  /** `area` is absent for micro-courses, whose records have no such field. */
  datatype Course = Course(id: string, title: string, xp: nat, done: bool, area: Option<string>)

  /** Everything but the `done` flag agrees. */
  predicate SameCourse(a: Course, b: Course) {
    a.id == b.id && a.title == b.title && a.xp == b.xp && a.area == b.area
  }

  /** `{ ...course, done: true }` when the id matches. */
  function Mark(c: Course, id: string): (r: Course)
    ensures SameCourse(r, c)
    ensures r.done <==> c.done || c.id == id
    ensures c.id != id ==> r == c
  {
    if c.id == id then c.(done := true) else c
  }

  /** The list update of `handleCompleteCourse`. */
  function Complete(cs: seq<Course>, id: string): (r: seq<Course>)
    ensures |r| == |cs|
    ensures forall i :: 0 <= i < |cs| ==> r[i] == Mark(cs[i], id)
  {
    if |cs| == 0 then []
    else [Mark(cs[0], id)] + Complete(cs[1..], id)
  }

  /** Completing twice is completing once. */
  lemma CompleteIdempotent(cs: seq<Course>, id: string)
    ensures Complete(Complete(cs, id), id) == Complete(cs, id)
  {
  }

  /** Completing an id that no course has changes nothing. */
  lemma CompleteUnknown(cs: seq<Course>, id: string)
    requires forall i :: 0 <= i < |cs| ==> cs[i].id != id
    ensures Complete(cs, id) == cs
  {
  }

  /** Completions in either order give the same list. */
  lemma CompleteCommutes(cs: seq<Course>, a: string, b: string)
    ensures Complete(Complete(cs, a), b) == Complete(Complete(cs, b), a)
  {
  }

  /** The number of finished courses. */
  function DoneCount(cs: seq<Course>): (n: nat)
    ensures n <= |cs|
  {
    if |cs| == 0 then 0 else (if cs[0].done then 1 else 0) + DoneCount(cs[1..])
  }

  /** Completing a course that was not done adds exactly one finished course. */
  lemma {:induction false} CompleteCountsOne(cs: seq<Course>, i: nat)
    requires i < |cs| && !cs[i].done
    requires forall j :: 0 <= j < |cs| && j != i ==> cs[j].id != cs[i].id
    ensures DoneCount(Complete(cs, cs[i].id)) == DoneCount(cs) + 1
  {
    var id := cs[i].id;
    var r := Complete(cs, id);
    assert r[1..] == Complete(cs[1..], id);
    if i == 0 {
      CompleteUnknown(cs[1..], id);
    } else {
      CompleteCountsOne(cs[1..], i - 1);
    }
  }

  /** `courses.find(c => c.id === courseId)`. */
  function Find(cs: seq<Course>, id: string): (r: Option<Course>)
    ensures r.None? <==> forall i :: 0 <= i < |cs| ==> cs[i].id != id
    ensures r.Some? ==> exists i :: 0 <= i < |cs| && cs[i] == r.value && r.value.id == id
                          && forall j :: 0 <= j < i ==> cs[j].id != id
  {
    if |cs| == 0 then None
    else if cs[0].id == id then Some(cs[0])
    else
      var r := Find(cs[1..], id);
      assert forall j :: 0 < j < |cs| ==> cs[j] == cs[1..][j - 1];
      r
  }

  /** The new list and the XP announced by the alert, if any. */
  datatype Pressed = Pressed(courses: seq<Course>, xp: Option<nat>)

  /**
   * Pressing `item`'s card: a finished card does nothing; otherwise the
   * course is completed and the XP of the first course with its id, looked
   * up in the list before the update, is announced.
   */
  function Press(cs: seq<Course>, item: Course): (r: Pressed)
    ensures item.done ==> r == Pressed(cs, None)
    ensures !item.done ==> r.courses == Complete(cs, item.id)
    ensures !item.done && item in cs ==> r.xp.Some?
    ensures r.xp.Some? <==> !item.done && exists i :: 0 <= i < |cs| && cs[i].id == item.id
    ensures r.xp.Some? ==> exists i :: 0 <= i < |cs| && cs[i].id == item.id && cs[i].xp == r.xp.value
                             && forall j :: 0 <= j < i ==> cs[j].id != item.id
  {
    if item.done then Pressed(cs, None)
    else
      var found := Find(cs, item.id);
      Pressed(Complete(cs, item.id), if found.Some? then Some(found.value.xp) else None)
  }

  /** Course ids are pairwise distinct. */
  predicate DistinctIds(cs: seq<Course>) {
    forall i, j :: 0 <= i < j < |cs| ==> cs[i].id != cs[j].id
  }

  /** With distinct ids, pressing an unfinished card finishes it and announces its own XP. */
  lemma PressFinishesItem(cs: seq<Course>, i: nat)
    requires DistinctIds(cs) && i < |cs| && !cs[i].done
    ensures Press(cs, cs[i]).xp == Some(cs[i].xp)
    ensures Press(cs, cs[i]).courses[i] == cs[i].(done := true)
  {
    var r := Find(cs, cs[i].id);
    var k :| 0 <= k < |cs| && cs[k] == r.value && r.value.id == cs[i].id && forall j :: 0 <= j < k ==> cs[j].id != cs[i].id;
  }
}

=== FILE: courses.dfy ===
/**
 * The course catalogue screen: which catalogue courses it lists for the
 * career stored by a quiz.
 */
module Courses {
  import opened Wrappers
  import opened CourseList
  import Careers
  import Seqs

  /** The area whose courses are listed for every career. */
  const General := "Geral"

  /** `ALL_COURSES`. */
  const AllCourses: seq<Course> := [
    Course("1", "Introdução à IA Generativa", 150, false, Some(Careers.DataScience)),
    Course("2", "Fundamentos de Machine Learning", 180, false, Some(Careers.DataScience)),
    Course("3", "Pensamento Analítico para Dados", 120, false, Some(Careers.DataScience)),
    Course("4", "O que é DevOps?", 140, false, Some(Careers.SoftwareEngineering)),
    Course("5", "Ciclo CI/CD em 15 minutos", 160, false, Some(Careers.SoftwareEngineering)),
    Course("6", "Introdução ao Docker", 180, false, Some(Careers.SoftwareEngineering)),
    Course("7", "Noções básicas de Cloud AWS", 150, false, Some(Careers.SoftwareEngineering)),
    Course("8", "Fundamentos de UX Design", 130, false, Some(Careers.UxDesign)),
    Course("9", "UI para iniciantes: Tipografia", 110, false, Some(Careers.UxDesign)),
    Course("10", "Criando Wireframes Rápidos", 150, false, Some(Careers.UxDesign)),
    Course("11", "Comunicação Empática", 120, false, Some(General)),
    Course("12", "Produtividade para Devs", 100, false, Some(General)),
    Course("13", "Resolução de Problemas", 130, false, Some(General)),
    Course("14", "Introdução à Gestão de Projetos", 180, false, Some(Careers.ProjectManagement)),
    Course("15", "Liderança para Iniciantes", 170, false, Some(Careers.ProjectManagement)),
    Course("16", "Métodos Ágeis e Scrum", 160, false, Some(Careers.ProjectManagement)),
    Course("17", "Lógica de Programação", 140, false, Some(Careers.SoftwareEngineering)),
    Course("18", "Git e GitHub em 30 min", 160, false, Some(Careers.SoftwareEngineering)),
    Course("19", "Introdução ao JavaScript", 150, false, Some(Careers.SoftwareEngineering)),
    Course("20", "APIs para Iniciantes", 150, false, Some(Careers.SoftwareEngineering))]

  /**
   * The filter predicate for a stored career: a recommended title or a
   * general course when the career has a recommendation list, otherwise a
   * course of the career's own area or a general one.
   */
  predicate Keep(c: Course, career: string) {
    var titles := Careers.RecommendedTitles(career);
    if |titles| > 0 then c.title in titles || c.area == Some(General)
    else c.area == Some(career) || c.area == Some(General)
  }

  /** `cs.filter(c => Keep(c, career))`. */
  function Filter(cs: seq<Course>, career: string): (r: seq<Course>)
    ensures forall c :: c in r <==> c in cs && Keep(c, career)
    ensures Seqs.IsSubsequence(r, cs)
  {
    if |cs| == 0 then []
    else if Keep(cs[0], career) then [cs[0]] + Filter(cs[1..], career)
    else Filter(cs[1..], career)
  }

  /** What the screen shows: the career, and the courses it lists. */
  datatype Listing = Listing(career: Option<string>, courses: seq<Course>)

  /**
   * `load`: an absent or empty stored result lists the whole catalogue;
   * otherwise the filtered courses, or the whole catalogue if none pass.
   */
  function Load(stored: Option<string>): (r: Listing)
    ensures stored.None? || stored == Some("") ==> r == Listing(None, AllCourses)
    ensures stored.Some? && stored.value != "" ==>
              r.career == stored
              && |r.courses| > 0
              && Seqs.IsSubsequence(r.courses, AllCourses)
              && forall c :: c in r.courses <==> c in AllCourses && Keep(c, stored.value)
  {
    if stored.None? || stored.value == "" then Listing(None, AllCourses)
    else
      var career := stored.value;
      var filtered := Filter(AllCourses, career);
      GeneralCourseListed(career);
      Listing(stored, if |filtered| == 0 then AllCourses else filtered)
  }

  /** A general course passes the filter for every career, so the fallback is never taken. */
  lemma GeneralCourseListed(career: string)
    ensures |Filter(AllCourses, career)| > 0
  {
    assert AllCourses[10].area == Some(General);
    assert AllCourses[10] in AllCourses;
  }

  /** For a career of the recommendation table, exactly its titles and the general courses. */
  lemma ListingForTableCareer(career: string, c: Course)
    requires career in Careers.Recommendations
    ensures c in Load(Some(career)).courses
            <==> c in AllCourses && (c.title in Careers.Recommendations[career] || c.area == Some(General))
  {
    Careers.TableListsNonEmpty();
  }

  /** Catalogue ids are distinct, so a press completes exactly the pressed course. */
  lemma CatalogueIdsDistinct()
    ensures DistinctIds(AllCourses)
  {
    FirstTenIdsDiffer();
    LastTenIdsDiffer();
    FirstFiveAgainstLastTen();
    NextFiveAgainstLastTen();
  }

  /** No course in positions `lo1..hi1` shares its id with a later one in `lo2..hi2`. */
  predicate IdsDiffer(lo1: nat, hi1: nat, lo2: nat, hi2: nat)
    requires hi1 <= |AllCourses| && hi2 <= |AllCourses|
  {
    forall i, j :: lo1 <= i < hi1 && lo2 <= j < hi2 && i < j ==> AllCourses[i].id != AllCourses[j].id
  }

  /** The pairs among the first ten ids, and among the last ten. */
  lemma FirstTenIdsDiffer()
    ensures IdsDiffer(0, 10, 0, 10)
  {
  }

  lemma LastTenIdsDiffer()
    ensures IdsDiffer(10, 20, 10, 20)
  {
  }

  /** The first ten ids against the last ten, five at a time. */
  lemma FirstFiveAgainstLastTen()
    ensures IdsDiffer(0, 5, 10, 20)
  {
  }

  lemma NextFiveAgainstLastTen()
    ensures IdsDiffer(5, 10, 10, 20)
  {
  }

  /** Some catalogue course carries title `t`. */
  predicate InCatalogue(t: string) {
    exists i :: 0 <= i < |AllCourses| && AllCourses[i].title == t
  }

  /** Every title the recommendation table names is a course of the catalogue. */
  lemma RecommendedTitlesExist()
    ensures forall k, t :: k in Careers.Recommendations && t in Careers.Recommendations[k] ==> InCatalogue(t)
  {
    SoftwareTitlesExist();
    UxTitlesExist();
    DataTitlesExist();
    ManagementTitlesExist();
    AnalysisTitlesExist();
  }

  /** Titles found at the given catalogue positions are all in the catalogue. */
  lemma TitlesAt(titles: seq<string>, at: seq<nat>)
    requires |at| == |titles|
    requires forall m :: 0 <= m < |at| ==> at[m] < |AllCourses| && AllCourses[at[m]].title == titles[m]
    ensures forall t :: t in titles ==> InCatalogue(t)
  {
    forall t | t in titles ensures InCatalogue(t) {
      var m :| 0 <= m < |titles| && titles[m] == t;
      assert AllCourses[at[m]].title == t;
    }
  }

  /** One lemma per career of the table: its titles, found at their catalogue positions. */
  lemma SoftwareTitlesExist()
    ensures forall t :: t in Careers.Recommendations[Careers.SoftwareEngineering] ==> InCatalogue(t)
  {
    TitlesAt(Careers.Recommendations[Careers.SoftwareEngineering], [17, 16, 4, 18, 19]);
  }

  lemma UxTitlesExist()
    ensures forall t :: t in Careers.Recommendations[Careers.UxDesign] ==> InCatalogue(t)
  {
    TitlesAt(Careers.Recommendations[Careers.UxDesign], [7, 8, 9, 10]);
  }

  lemma DataTitlesExist()
    ensures forall t :: t in Careers.Recommendations[Careers.DataScience] ==> InCatalogue(t)
  {
    TitlesAt(Careers.Recommendations[Careers.DataScience], [1, 2, 0, 16]);
  }

  lemma ManagementTitlesExist()
    ensures forall t :: t in Careers.Recommendations[Careers.ProjectManagement] ==> InCatalogue(t)
  {
    TitlesAt(Careers.Recommendations[Careers.ProjectManagement], [13, 15, 10, 12]);
  }

  lemma AnalysisTitlesExist()
    ensures forall t :: t in Careers.Recommendations[Careers.SystemsAnalysis] ==> InCatalogue(t)
  {
    TitlesAt(Careers.Recommendations[Careers.SystemsAnalysis], [16, 2, 17, 19]);
  }
}

=== FILE: dashboard.dfy ===
/** The dashboard's figures: progress, courses saved and the count of pending actions. */
module Dashboard {
  import opened Wrappers
  import opened Answers

  /** The stored profile fields the dashboard reads; an absent profile reads as `{}`. */
  datatype ProfileData = ProfileData(name: Option<string>, progress: Option<real>)

  /** The stored login record; only its name is used here. */
  datatype UserData = UserData(name: Option<string>)

  /** The name a freshly created profile carries. */
  const NewUserName := "Novo Usuário"

  /** The shown name when no first name can be derived. */
  const DefaultUserName := "Usuário"

  /** The three things the dashboard nags about. */
  datatype Action = TakeTest | CompleteProfile | SaveCourse

  const AllActions: set<Action> := {TakeTest, CompleteProfile, SaveCourse}

  /** The stored values `loadDashboardData` reads, after `JSON.parse` and the `{}`/`[]` defaults. */
  datatype Stored = Stored(profile: Option<ProfileData>, answers: Option<AnswerList>, savedRecs: Option<seq<string>>)

  function ProfileOf(st: Stored): ProfileData {
    st.profile.GetOr(ProfileData(None, None))
  }

  function SavedOf(st: Stored): seq<string> {
    st.savedRecs.GetOr([])
  }

  /** Whether an action is still to do, in the dashboard's terms. */
  predicate IsPending(a: Action, st: Stored) {
    match a
    case TakeTest => |st.answers.GetOr([])| == 0
    case CompleteProfile =>
      var name := ProfileOf(st).name;
      name.None? || name.value == "" || name.value == NewUserName
    case SaveCourse => |SavedOf(st)| == 0
  }

  function PendingSet(st: Stored): set<Action> {
    set a | a in AllActions && IsPending(a, st)
  }

  datatype Figures = Figures(progress: real, completedCourses: nat, pendingActions: nat)

  /** `loadDashboardData`. */
  function Load(st: Stored): (f: Figures)
    ensures f.pendingActions <= 3
    ensures f.pendingActions == |PendingSet(st)|
    ensures f.pendingActions == 0 <==> forall a :: !IsPending(a, st)
    ensures f.completedCourses == |SavedOf(st)|
    ensures st.savedRecs.None? ==> f.completedCourses == 0
    ensures f.progress == ProfileOf(st).progress.GetOr(0.0)
  {
    var p := ProfileOf(st);
    var pending :=
      (if |st.answers.GetOr([])| == 0 then 1 else 0)
      + (if p.name.None? || p.name.value == "" || p.name.value == NewUserName then 1 else 0)
      + (if |SavedOf(st)| == 0 then 1 else 0);
    PendingCount(st);
    Figures(p.progress.GetOr(0.0), |SavedOf(st)|, pending)
  }

  /** The count is the number of pending actions. */
  lemma PendingCount(st: Stored)
    ensures |PendingSet(st)|
            == (if IsPending(TakeTest, st) then 1 else 0)
             + (if IsPending(CompleteProfile, st) then 1 else 0)
             + (if IsPending(SaveCourse, st) then 1 else 0)
  {
    var x, y, z := IsPending(TakeTest, st), IsPending(CompleteProfile, st), IsPending(SaveCourse, st);
    forall a ensures a in PendingSet(st) <==> (a == TakeTest && x) || (a == CompleteProfile && y) || (a == SaveCourse && z) {
      match a
      case TakeTest =>
      case CompleteProfile =>
      case SaveCourse =>
    }
    CountOfThree(PendingSet(st), x, y, z);
  }

  /** A set of actions described by three flags has as many members as flags set. */
  lemma CountOfThree(p: set<Action>, x: bool, y: bool, z: bool)
    requires forall a :: a in p <==> (a == TakeTest && x) || (a == CompleteProfile && y) || (a == SaveCourse && z)
    ensures |p| == (if x then 1 else 0) + (if y then 1 else 0) + (if z then 1 else 0)
  {
    if x {
      if y {
        if z { assert p == {TakeTest, CompleteProfile, SaveCourse}; }
        else { assert p == {TakeTest, CompleteProfile}; }
      } else {
        if z { assert p == {TakeTest, SaveCourse}; }
        else { assert p == {TakeTest}; }
      }
    } else {
      if y {
        if z { assert p == {CompleteProfile, SaveCourse}; }
        else { assert p == {CompleteProfile}; }
      } else {
        if z { assert p == {SaveCourse}; }
        else { assert p == {}; }
      }
    }
  }

  /** Answering the test removes exactly one pending action. */
  lemma AnsweringRemovesOne(st: Stored, answers: AnswerList)
    requires IsPending(TakeTest, st) && |answers| > 0
    ensures Load(st.(answers := Some(answers))).pendingActions == Load(st).pendingActions - 1
  {
  }

  /** Saving a course removes exactly one pending action and counts it. */
  lemma SavingRemovesOne(st: Stored, recs: seq<string>)
    requires IsPending(SaveCourse, st) && |recs| > 0
    ensures Load(st.(savedRecs := Some(recs))).pendingActions == Load(st).pendingActions - 1
    ensures Load(st.(savedRecs := Some(recs))).completedCourses == |recs|
  {
  }

  /** `split(' ')[0]`: the text before the first space, or all of it. */
  function FirstWord(s: string): (w: string)
    ensures |w| <= |s| && w == s[..|w|]
    ensures ' ' !in w
    ensures |w| == |s| || s[|w|] == ' '
  {
    if |s| == 0 || s[0] == ' ' then ""
    else [s[0]] + FirstWord(s[1..])
  }

  /** `userData?.name?.split(' ')[0] || 'Usuário'`. */
  function UserName(user: Option<UserData>): (n: string)
    ensures n != ""
    ensures user.Some? && user.value.name.Some? && FirstWord(user.value.name.value) != "" ==>
              n == FirstWord(user.value.name.value)
    ensures n != DefaultUserName ==> ' ' !in n
    ensures user.None? || user.value.name.None? ==> n == DefaultUserName
    ensures user.Some? && user.value.name.Some? && FirstWord(user.value.name.value) == "" ==>
              n == DefaultUserName
    ensures user.Some? && user.value.name.Some? && (user.value.name.value == "" || user.value.name.value[0] == ' ') ==>
              n == DefaultUserName
  {
    if user.Some? && user.value.name.Some? then
      var w := FirstWord(user.value.name.value);
      if w != "" then w else DefaultUserName
    else DefaultUserName
  }

  /** A stored name is shown up to its first space. */
  lemma FirstNameShown(first: string, rest: string)
    requires first != "" && ' ' !in first
    ensures UserName(Some(UserData(Some(first + " " + rest)))) == first
  {
    FirstWordOf(first, rest);
  }

  /** The first word of "<first> <rest>" is `first`. */
  lemma {:induction false} FirstWordOf(first: string, rest: string)
    requires ' ' !in first
    ensures FirstWord(first + " " + rest) == first
  {
    if |first| > 0 {
      assert (first + " " + rest)[1..] == first[1..] + " " + rest;
      FirstWordOf(first[1..], rest);
    } else {
      assert (first + " " + rest)[0] == ' ';
    }
  }
}

=== FILE: login.dfy ===
/**
 * The login screen's checks: the email pattern, the password length, their
 * order, and the lookup in the built-in user table.
 */
module Login {
  import opened Wrappers
  import opened Text

  datatype User = User(email: string, password: string, name: string)

  /** `USERS_DB`. */
  const UsersDb: seq<User> := [
    User("lana@email.com", "123456", "Lana Andrade"),
    User("admin@careermatch.com", "admin123", "Administrador"),
    User("teste@email.com", "teste123", "Usuário Teste")]

  /** One `[^\s@]+` part of the pattern: non-empty, no whitespace, no '@'. */
  predicate EmailPart(s: string) {
    |s| > 0 && forall i :: 0 <= i < |s| ==> !IsSpace(s[i]) && s[i] != '@'
  }

  /** `/^[^\s@]+@[^\s@]+\.[^\s@]+$/`: local part, '@', host, '.', last label. */
  ghost predicate MatchesEmailPattern(s: string) {
    exists i, j :: 0 < i < j - 1 && j < |s| - 1 && s[i] == '@' && s[j] == '.'
                   && EmailPart(s[..i]) && EmailPart(s[i + 1..j]) && EmailPart(s[j + 1..])
  }

  /** The first position of `c` in `s`, or `|s|`. */
  function IndexOf(s: string, c: char): (k: nat)
    ensures k <= |s|
    ensures k < |s| ==> s[k] == c
    ensures c !in s[..k]
    ensures k == |s| <==> c !in s
  {
    if |s| == 0 then 0
    else if s[0] == c then 0
    else
      var k := 1 + IndexOf(s[1..], c);
      assert s[..k] == [s[0]] + s[1..][..k - 1];
      k
  }

  /** The part after '@' has a '.' that is neither its first nor its last character. */
  predicate DomainHasInnerDot(d: string) {
    |d| >= 3 && '.' in d[1..|d| - 1]
  }

  /**
   * `validateEmail`: no whitespace, exactly one '@', a non-empty local part,
   * and an inner '.' in the domain.
   */
  predicate ValidateEmail(s: string) {
    var k := IndexOf(s, '@');
    NoSpace(s) && 0 < k < |s| && '@' !in s[k + 1..] && DomainHasInnerDot(s[k + 1..])
  }

  /** `validateEmail` and its regular expression accept the same strings. */
  lemma EmailCheckMatchesPattern(s: string)
    ensures ValidateEmail(s) <==> MatchesEmailPattern(s)
  {
    if ValidateEmail(s) {
      CheckImpliesPattern(s);
    }
    if MatchesEmailPattern(s) {
      var i, j :| 0 < i < j - 1 && j < |s| - 1 && s[i] == '@' && s[j] == '.'
                  && EmailPart(s[..i]) && EmailPart(s[i + 1..j]) && EmailPart(s[j + 1..]);
      PatternImpliesCheck(s, i, j);
    }
  }

  /** The '@' and inner '.' that `validateEmail` finds split the string as the pattern does. */
  lemma CheckImpliesPattern(s: string)
    requires ValidateEmail(s)
    ensures MatchesEmailPattern(s)
  {
    var k := IndexOf(s, '@');
    var d := s[k + 1..];
    var m :| 1 <= m < |d| - 1 && d[m] == '.';
    var j := k + 1 + m;
    assert s[j] == '.';
    assert EmailPart(s[..k]) by {
      forall t | 0 <= t < k ensures !IsSpace(s[..k][t]) && s[..k][t] != '@' {
        assert s[..k][t] in s[..k];
      }
    }
    var host, tld := s[k + 1..j], s[j + 1..];
    assert EmailPart(host) by {
      forall t | 0 <= t < |host| ensures !IsSpace(host[t]) && host[t] != '@' {
        assert host[t] == d[t];
        assert d[t] in d;
      }
    }
    assert EmailPart(tld) by {
      forall t | 0 <= t < |tld| ensures !IsSpace(tld[t]) && tld[t] != '@' {
        assert tld[t] == d[m + 1 + t];
        assert d[m + 1 + t] in d;
      }
    }
  }

  /** A split as the pattern describes passes every part of `validateEmail`. */
  lemma PatternImpliesCheck(s: string, i: nat, j: nat)
    requires 0 < i < j - 1 && j < |s| - 1 && s[i] == '@' && s[j] == '.'
    requires EmailPart(s[..i]) && EmailPart(s[i + 1..j]) && EmailPart(s[j + 1..])
    ensures ValidateEmail(s)
  {
    forall t | 0 <= t < |s| ensures !IsSpace(s[t]) && (s[t] == '@' <==> t == i) {
      if t < i {
        assert s[t] == s[..i][t];
      } else if i < t < j {
        assert s[t] == s[i + 1..j][t - i - 1];
      } else if j < t {
        assert s[t] == s[j + 1..][t - j - 1];
      }
    }
    assert '@' !in s[..i];
    var d := s[i + 1..];
    assert d[j - i - 1] == '.';
    assert d[1..|d| - 1][j - i - 2] == '.';
  }

  /** `validatePassword`: at least six UTF-16 code units. */
  predicate ValidatePassword(p: string) {
    Utf16Length(p) >= 6
  }

  /** Six characters always suffice; for text without astral characters six are needed. */
  lemma PasswordLength(p: string)
    ensures |p| >= 6 ==> ValidatePassword(p)
    ensures |p| < 3 ==> !ValidatePassword(p)
    ensures NoAstral(p) ==> (ValidatePassword(p) <==> |p| >= 6)
  {
  }

  /** `USERS_DB.find(u => u.email === email && u.password === password)`. */
  function FindUser(db: seq<User>, email: string, password: string): (u: Option<User>)
    ensures u.Some? ==> u.value in db && u.value.email == email && u.value.password == password
    ensures u.Some? ==> exists i :: 0 <= i < |db| && db[i] == u.value
                          && forall j :: 0 <= j < i ==> !(db[j].email == email && db[j].password == password)
    ensures u.None? <==> forall v :: v in db ==> !(v.email == email && v.password == password)
  {
    if |db| == 0 then None
    else if db[0].email == email && db[0].password == password then Some(db[0])
    else FindUser(db[1..], email, password)
  }

  /** What pressing "Entrar" leads to. */
  datatype Outcome = MissingFields | InvalidEmail | ShortPassword | WrongCredentials
                   | LoggedIn(email: string, name: string)

  /** `onLogin`: the checks in order, then the lookup. */
  function OnLogin(email: string, password: string): (o: Outcome)
    ensures o == MissingFields <==> email == "" || password == ""
    ensures o == InvalidEmail <==> email != "" && password != "" && !ValidateEmail(email)
    ensures o == ShortPassword
            <==> email != "" && password != "" && ValidateEmail(email) && !ValidatePassword(password)
    ensures o.LoggedIn? <==> exists u :: u in UsersDb && u.email == email && u.password == password
    ensures o.LoggedIn? ==> o.email == email && User(email, password, o.name) in UsersDb
  {
    UsersPassChecks();
    if email == "" || password == "" then MissingFields
    else if !ValidateEmail(email) then InvalidEmail
    else if !ValidatePassword(password) then ShortPassword
    else
      match FindUser(UsersDb, email, password)
      case Some(u) => LoggedIn(u.email, u.name)
      case None => WrongCredentials
  }

  /** Every built-in user passes both format checks, so no check ever blocks a real account. */
  lemma UsersPassChecks()
    ensures forall u :: u in UsersDb ==> u.email != "" && u.password != ""
                                         && ValidateEmail(u.email) && ValidatePassword(u.password)
  {
    forall k | 0 <= k < |UsersDb|
      ensures ValidateEmail(UsersDb[k].email) && ValidatePassword(UsersDb[k].password)
    {
      UserPassesChecks(k);
    }
  }

  /** User `k` passes both format checks. */
  lemma UserPassesChecks(k: nat)
    requires k < |UsersDb|
    ensures ValidateEmail(UsersDb[k].email) && ValidatePassword(UsersDb[k].password)
  {
    var u := UsersDb[k];
    if k == 0 {
      LanaEmailParts();
      UserPasses(u, 4, 10);
    } else if k == 1 {
      AdminEmailParts();
      UserPasses(u, 5, 17);
    } else {
      TesteEmailParts();
      UserPasses(u, 5, 11);
    }
  }

  /** A user whose email splits as the pattern wants and whose password has six characters passes. */
  lemma UserPasses(u: User, i: nat, j: nat)
    requires SplitsAt(u.email, i, j) && |u.password| >= 6
    ensures ValidateEmail(u.email) && ValidatePassword(u.password)
  {
    PatternImpliesCheck(u.email, i, j);
    PasswordLength(u.password);
  }

  /** `s` splits around an '@' at `i` and a '.' at `j` into three pattern parts. */
  predicate SplitsAt(s: string, i: nat, j: nat) {
    0 < i < j - 1 && j < |s| - 1 && s[i] == '@' && s[j] == '.'
    && EmailPart(s[..i]) && EmailPart(s[i + 1..j]) && EmailPart(s[j + 1..])
  }

  /** A run of lower-case ASCII letters is a pattern part. */
  lemma LowerIsPart(s: string)
    requires |s| > 0 && forall i :: 0 <= i < |s| ==> 'a' <= s[i] <= 'z'
    ensures EmailPart(s)
  {
  }

  /** Local part, '@', host, '.', last label: the pattern's own shape. */
  lemma JoinedParts(s: string, i: nat, j: nat, a: string, b: string, c: string)
    requires EmailPart(a) && EmailPart(b) && EmailPart(c)
    requires s == a + "@" + b + "." + c && i == |a| && j == |a| + 1 + |b|
    ensures SplitsAt(s, i, j)
  {
    assert s[..i] == a;
    assert s[i + 1..j] == b;
    assert s[j + 1..] == c;
  }

  /** Each built-in email, spelt out as local part, host and last label. */
  lemma LanaEmailJoined()
    ensures UsersDb[0].email == "lana" + "@" + "email" + "." + "com"
  {
  }

  /** Each built-in email splits as the pattern wants. */
  lemma LanaEmailParts()
    ensures SplitsAt(UsersDb[0].email, 4, 10)
  {
    LowerIsPart("lana");
    LowerIsPart("email");
    LowerIsPart("com");
    var s := UsersDb[0].email;
    LanaEmailJoined();
    JoinedParts(s, 4, 10, "lana", "email", "com");
  }

  lemma AdminEmailParts()
    ensures SplitsAt(UsersDb[1].email, 5, 17)
  {
    LowerIsPart("admin");
    LowerIsPart("careermatch");
    LowerIsPart("com");
    var s := UsersDb[1].email;
    AdminEmailJoined();
    JoinedParts(s, 5, 17, "admin", "careermatch", "com");
  }

  lemma AdminEmailJoined()
    ensures UsersDb[1].email == "admin" + "@" + "careermatch" + "." + "com"
  {
  }

  lemma TesteEmailJoined()
    ensures UsersDb[2].email == "teste" + "@" + "email" + "." + "com"
  {
  }

  lemma TesteEmailParts()
    ensures SplitsAt(UsersDb[2].email, 5, 11)
  {
    LowerIsPart("teste");
    LowerIsPart("email");
    LowerIsPart("com");
    var s := UsersDb[2].email;
    TesteEmailJoined();
    JoinedParts(s, 5, 11, "teste", "email", "com");
  }

  /** Emails in the user table are distinct, so a login names one account. */
  lemma UserEmailsDistinct()
    ensures forall a, b :: 0 <= a < b < |UsersDb| ==> UsersDb[a].email != UsersDb[b].email
  {
  }
}

=== FILE: micro_courses.dfy ===
/** The micro-courses screen: three short courses, the first already finished. */
module MicroCourses {
  import opened Wrappers
  import opened CourseList

  /** The screen's initial state. */
  const Initial: seq<Course> := [
    Course("1", "Introdução à IA generativa", 150, true, None),
    Course("2", "Sustentabilidade na prática", 100, false, None),
    Course("3", "Comunicação empática", 120, false, None)]

  /** Pressing the finished first card neither changes the list nor announces XP. */
  lemma FinishedCardIsInert()
    ensures Press(Initial, Initial[0]) == Pressed(Initial, None)
  {
  }

  /** Pressing the second card finishes it alone and announces its 100 XP. */
  lemma SecondCardCompletes()
    ensures Press(Initial, Initial[1]).xp == Some(100)
    ensures Press(Initial, Initial[1]).courses == Initial[1 := Initial[1].(done := true)]
  {
    assert DistinctIds(Initial);
    PressFinishesItem(Initial, 1);
    var r := Press(Initial, Initial[1]).courses;
    assert r[0] == Initial[0] && r[2] == Initial[2];
  }

  /** Once every card is finished, no press changes anything. */
  lemma AllFinishedIsStable(cs: seq<Course>, item: Course)
    requires forall i :: 0 <= i < |cs| ==> cs[i].done
    requires item in cs
    ensures Press(cs, item) == Pressed(cs, None)
  {
  }
}

=== FILE: notification_badge.dfy ===
/**
 * The two notification badges: the shared component and the older copy kept
 * among the screens. Both hide on zero and cap the label at "99+".
 */
module NotificationBadge {
  import opened Wrappers
  import opened Text

  /** The size used when none is given. */
  const DefaultSize: real := 18.0

  /** The label for counts above 99. */
  const Capped := "99+"

  /** `count > 99 ? '99+' : count.toString()`. */
  function DisplayCount(count: int): (shown: string)
    ensures count > 99 ==> shown == Capped
    ensures 0 <= count <= 99 ==> AllDigits(shown) && ParseNat(shown) == count && |shown| <= 2
    ensures count < 0 ==> |shown| >= 2 && shown[0] == '-' && AllDigits(shown[1..]) && ParseNat(shown[1..]) == -count
    ensures count >= 0 ==> 1 <= |shown| <= 3
    ensures 0 <= count <= 99 ==> shown == NatToString(count)
    ensures count < 0 ==> shown == "-" + NatToString(-count)
    ensures 0 <= count <= 99 && |shown| > 1 ==> shown[0] != '0'
  {
    if count > 99 then Capped
    else
      ShortDecimal(count);
      IntToString(count)
  }

  /** What a rendered badge shows. */
  datatype Badge = Badge(text: string, size: real)

  /** The component: nothing for 0, otherwise the display count at the given or default size. */
  function ComponentBadge(count: int, size: Option<real>): (b: Option<Badge>)
    ensures b.None? <==> count == 0
    ensures b.Some? ==> b.value.size == size.GetOr(DefaultSize)
    ensures b.Some? && count > 99 ==> b.value.text == Capped
    ensures b.Some? && 0 < count <= 99 ==> AllDigits(b.value.text) && ParseNat(b.value.text) == count
    ensures b.Some? && count > 0 ==> |b.value.text| <= 3
    ensures b.Some? ==> b.value.text == DisplayCount(count)
    ensures b.Some? && count < 0 ==> b.value.text == "-" + NatToString(-count)
  {
    if count == 0 then None else Some(Badge(DisplayCount(count), size.GetOr(DefaultSize)))
  }

  /** The screen copy's text child: the string "99+" or the number itself. */
  datatype Child = Text(text: string) | Number(n: int)

  /** A number child is shown as its decimal text. */
  function Shown(c: Child): (s: string)
    ensures c.Text? ==> s == c.text
    ensures c.Number? ==> s == IntToString(c.n)
    ensures c.Number? && c.n >= 0 ==> AllDigits(s) && ParseNat(s) == c.n && s == NatToString(c.n)
    ensures c.Number? && c.n < 0 ==> s == "-" + NatToString(-c.n)
  {
    match c
    case Text(t) => t
    case Number(n) => IntToString(n)
  }

  /** The screen copy, returning its child and size. */
  function ScreenBadge(count: int, size: Option<real>): (r: Option<(Child, real)>)
    ensures r.None? <==> count == 0
    ensures r.Some? ==> r.value.1 == size.GetOr(DefaultSize)
    ensures r.Some? && count > 99 ==> r.value.0 == Text(Capped)
    ensures r.Some? && count <= 99 ==> r.value.0 == Number(count)
  {
    if count == 0 then None
    else Some((if count > 99 then Text(Capped) else Number(count), size.GetOr(DefaultSize)))
  }

  /** Both badges show the same text at the same size for every count. */
  lemma SameBadge(count: int, size: Option<real>)
    ensures ComponentBadge(count, size).None? <==> ScreenBadge(count, size).None?
    ensures ComponentBadge(count, size).Some? ==>
              ComponentBadge(count, size).value
              == Badge(Shown(ScreenBadge(count, size).value.0), ScreenBadge(count, size).value.1)
  {
  }

  /** The decimal string of a count in 0..99 has one or two digits. */
  lemma ShortDecimal(n: int)
    requires n <= 99
    ensures n >= 0 ==> 1 <= |IntToString(n)| <= 2
  {
  }
}

=== FILE: profile.dfy ===
/**
 * What the three profile validators share: the draft a screen receives, the
 * five fields a report speaks about, the kinds of problem, the normalised
 * record and the list of checks a validation screen displays.
 */
module Profile {
  import opened Wrappers
  import opened Text
  import Skills

  /** A draft as it arrives as a route parameter: every field may be missing. */
  datatype Draft = Draft(
    name: Option<string>,
    role: Option<string>,
    skills: Option<string>,
    progress: Option<real>,
    areas: Option<seq<string>>)

  /** The keys of the `errors` record. */
  datatype Field = NameField | RoleField | SkillsField | AreasField | ProgressField

  /** The order in which the validation screens list their checks. */
  const FieldOrder: seq<Field> := [NameField, RoleField, SkillsField, AreasField, ProgressField]

  /** The problem an error message reports; the wording itself is not modelled. */
  datatype Issue = Missing | TooShort | TooLong | TooMany | OutOfRange | TooLow

  /** Collects the per-field outcomes into the `errors` record. */
  function Collect(name: Option<Issue>, role: Option<Issue>, skills: Option<Issue>,
                   areas: Option<Issue>, progress: Option<Issue>): (errors: map<Field, Issue>)
    ensures NameField in errors <==> name.Some?
    ensures RoleField in errors <==> role.Some?
    ensures SkillsField in errors <==> skills.Some?
    ensures AreasField in errors <==> areas.Some?
    ensures ProgressField in errors <==> progress.Some?
    ensures NameField in errors ==> errors[NameField] == name.value
    ensures RoleField in errors ==> errors[RoleField] == role.value
    ensures SkillsField in errors ==> errors[SkillsField] == skills.value
    ensures AreasField in errors ==> errors[AreasField] == areas.value
    ensures ProgressField in errors ==> errors[ProgressField] == progress.value
  {
    var issues := Issues(name, role, skills, areas, progress);
    assert issues.At(NameField) == name;
    assert issues.At(RoleField) == role;
    assert issues.At(SkillsField) == skills;
    assert issues.At(AreasField) == areas;
    assert issues.At(ProgressField) == progress;
    issues.ToErrors()
  }

  /** An error record is empty exactly when none of the five fields is a key. */
  lemma NoErrorKeys(errors: map<Field, Issue>)
    ensures errors == map[] <==>
      (NameField !in errors && RoleField !in errors && SkillsField !in errors
       && AreasField !in errors && ProgressField !in errors)
  {
    if errors != map[] {
      var k :| k in errors;
      match k
      case NameField =>
      case RoleField =>
      case SkillsField =>
      case AreasField =>
      case ProgressField =>
    }
  }

  /** Two error records that agree on the four critical fields have the same critical keys. */
  lemma SameKeysButProgress(a: map<Field, Issue>, b: map<Field, Issue>)
    requires NameField in a <==> NameField in b
    requires RoleField in a <==> RoleField in b
    requires SkillsField in a <==> SkillsField in b
    requires AreasField in a <==> AreasField in b
    ensures a.Keys - {ProgressField} == b.Keys - {ProgressField}
  {
    forall f | f in a.Keys - {ProgressField} ensures f in b.Keys {
      match f
      case NameField =>
      case RoleField =>
      case SkillsField =>
      case AreasField =>
    }
    forall f | f in b.Keys - {ProgressField} ensures f in a.Keys {
      match f
      case NameField =>
      case RoleField =>
      case SkillsField =>
      case AreasField =>
    }
  }

  /** The normalised record a validator returns and the form stores. */
  datatype Profile = Profile(
    name: string,
    role: string,
    skills: string,
    progress: Option<real>,
    areas: seq<string>)

  /** `{ ok, errors, normalized }`. */
  datatype Report = Report(ok: bool, errors: map<Field, Issue>, normalized: Profile)

  /** One entry of the `checks` list: whether the field passed and whether it blocks. */
  datatype Check = Check(field: Field, ok: bool, critical: bool)

  /** The validation screens mark every field but progress as critical. */
  predicate IsCritical(f: Field) {
    f != ProgressField
  }

  /** Per-field outcome, before it is collected into the `errors` record. */
  datatype Issues = Issues(
    name: Option<Issue>,
    role: Option<Issue>,
    skills: Option<Issue>,
    areas: Option<Issue>,
    progress: Option<Issue>)
  {
    function At(f: Field): Option<Issue> {
      match f
      case NameField => name
      case RoleField => role
      case SkillsField => skills
      case AreasField => areas
      case ProgressField => progress
    }

    /** The `errors` record: one key per field that reported a problem. */
    function ToErrors(): (errors: map<Field, Issue>)
      ensures forall f :: f in errors <==> At(f).Some?
      ensures forall f :: f in errors ==> errors[f] == At(f).value
    {
      map f | f in FieldOrder && At(f).Some? :: At(f).value
    }
  }

  /** The trimmed name of a draft (`(draft.name ?? '').trim()`). */
  function TrimmedName(d: Draft): string {
    Trim(d.name.GetOr(""))
  }

  function TrimmedRole(d: Draft): string {
    Trim(d.role.GetOr(""))
  }

  /** The normalised skill list of a draft. */
  function SkillList(d: Draft): seq<string> {
    Skills.Normalize(d.skills.GetOr(""))
  }

  function AreaList(d: Draft): seq<string> {
    d.areas.GetOr([])
  }

  /**
   * The length rules the two validation screens share. `name` and `role` are
   * already trimmed; lengths are UTF-16 code units as JavaScript counts them.
   */
  function NameIssue(name: string): (i: Option<Issue>)
    ensures i.Some? <==> Utf16Length(name) < 2 || Utf16Length(name) > 50
    ensures i == Some(Missing) <==> name == ""
    ensures i == Some(TooShort) <==> name != "" && Utf16Length(name) < 2
    ensures i == Some(TooLong) <==> Utf16Length(name) > 50
  {
    if name == "" then Some(Missing)
    else if Utf16Length(name) < 2 then Some(TooShort)
    else if Utf16Length(name) > 50 then Some(TooLong)
    else None
  }

  function RoleIssue(role: string): (i: Option<Issue>)
    ensures i.Some? <==> Utf16Length(role) < 3
    ensures i == Some(Missing) <==> role == ""
    ensures i == Some(TooShort) <==> role != "" && Utf16Length(role) < 3
  {
    if role == "" then Some(Missing)
    else if Utf16Length(role) < 3 then Some(TooShort)
    else None
  }

  function SkillsIssue(count: nat): (i: Option<Issue>)
    ensures i.Some? <==> count == 0 || count > 10
    ensures i == Some(Missing) <==> count == 0
    ensures i == Some(TooMany) <==> count > 10
  {
    if count == 0 then Some(Missing) else if count > 10 then Some(TooMany) else None
  }

  function AreasIssue(count: nat): (i: Option<Issue>)
    ensures i.Some? <==> count == 0 || count > 5
    ensures i == Some(Missing) <==> count == 0
    ensures i == Some(TooMany) <==> count > 5
  {
    if count == 0 then Some(Missing) else if count > 5 then Some(TooMany) else None
  }

  /** `Math.min(1, Math.max(floor, p))`. */
  function Clamp(floor: real, p: real): (r: real)
    requires floor <= 1.0
    ensures floor <= r <= 1.0
    ensures floor <= p <= 1.0 ==> r == p
    ensures p < floor ==> r == floor
    ensures p > 1.0 ==> r == 1.0
  {
    if p < floor then floor else if p > 1.0 then 1.0 else p
  }

  /** `areasInteresse.slice(0, 5)`. */
  function FirstFive(areas: seq<string>): (r: seq<string>)
    ensures |r| <= 5 && |r| <= |areas| && r == areas[..|r|]
    ensures |areas| >= 5 ==> |r| == 5
    ensures |areas| <= 5 ==> r == areas
  {
    if |areas| <= 5 then areas else areas[..5]
  }

  /** The stored skills text: the normalised tokens joined with ", ". */
  function NormalizedSkills(raw: string): (s: string)
    ensures Skills.Normalize(s) == Skills.Normalize(raw)
    ensures s == Skills.Join(Skills.Normalize(s))
  {
    Skills.NormalizeRoundTrip(raw);
    Skills.Join(Skills.Normalize(raw))
  }

  /** A stored profile handed back to a validator, every field present. */
  function ToDraft(p: Profile): Draft {
    Draft(Some(p.name), Some(p.role), Some(p.skills), p.progress, Some(p.areas))
  }

  /**
   * The `normalized` record both validation screens compute, whatever the
   * errors: trimmed texts, re-joined skills, progress floored at 0.1 and capped
   * at 1 (0.1 when missing), at most the first five areas.
   */
  function Normalized(d: Draft): (n: Profile)
    ensures n.name == TrimmedName(d) && n.role == TrimmedRole(d)
    ensures Skills.Normalize(n.skills) == SkillList(d)
    ensures n.skills == Skills.Join(SkillList(d))
    ensures n.progress.Some? && 0.1 <= n.progress.value <= 1.0
    ensures d.progress.None? ==> n.progress == Some(0.1)
    ensures d.progress.Some? ==> n.progress == Some(Clamp(0.1, d.progress.value))
    ensures d.progress.Some? && 0.1 <= d.progress.value <= 1.0 ==> n.progress == d.progress
    ensures |n.areas| <= 5 && |n.areas| <= |AreaList(d)| && n.areas == AreaList(d)[..|n.areas|]
    ensures |AreaList(d)| <= 5 ==> n.areas == AreaList(d)
    ensures |AreaList(d)| >= 5 ==> |n.areas| == 5
  {
    var progress := match d.progress
      case None => 0.1
      case Some(p) => Clamp(0.1, p);
    Profile(TrimmedName(d), TrimmedRole(d), NormalizedSkills(d.skills.GetOr("")),
            Some(progress), FirstFive(AreaList(d)))
  }

  /** What a validator reads from a normalised record handed back to it. */
  lemma RenormalizedFields(d: Draft)
    ensures var d2 := ToDraft(Normalized(d));
      TrimmedName(d2) == TrimmedName(d) && TrimmedRole(d2) == TrimmedRole(d)
      && SkillList(d2) == SkillList(d)
      && |AreaList(d2)| <= 5 && (|AreaList(d2)| == 0 ==> |AreaList(d)| == 0)
      && d2.progress.Some? && 0.1 <= d2.progress.value <= 1.0
  {
    var n := Normalized(d);
    var d2 := ToDraft(n);
    assert TrimmedName(d2) == n.name;
    assert TrimmedRole(d2) == n.role;
  }

  /** Normalising a normalised record changes nothing. */
  lemma RenormalizeRecord(d: Draft)
    ensures Normalized(ToDraft(Normalized(d))) == Normalized(d)
  {
    var n := Normalized(d);
    var d2 := ToDraft(n);
    assert TrimmedName(d2) == n.name;
    assert TrimmedRole(d2) == n.role;
    assert NormalizedSkills(n.skills) == n.skills;
    assert Normalized(d2).progress == n.progress;
    assert Normalized(d2).areas == n.areas;
  }

  /** The checks for the given fields, in that order. */
  function ChecksFor(fs: seq<Field>, errors: map<Field, Issue>): (cs: seq<Check>)
    ensures |cs| == |fs|
    ensures forall i :: 0 <= i < |fs| ==>
      cs[i].field == fs[i] && (cs[i].ok <==> fs[i] !in errors) && (cs[i].critical <==> IsCritical(fs[i]))
  {
    if |fs| == 0 then []
    else [Check(fs[0], fs[0] !in errors, IsCritical(fs[0]))] + ChecksFor(fs[1..], errors)
  }

  /** The five-entry `checks` list of a validation screen. */
  function Checks(errors: map<Field, Issue>): seq<Check> {
    ChecksFor(FieldOrder, errors)
  }

  /** `checks.filter(c => !c.ok).length`. */
  function CountFailed(cs: seq<Check>): nat {
    if |cs| == 0 then 0 else (if cs[0].ok then 0 else 1) + CountFailed(cs[1..])
  }

  /** `checks.filter(c => !c.ok && c.critical).length`. */
  function CountCritical(cs: seq<Check>): nat {
    if |cs| == 0 then 0 else (if !cs[0].ok && cs[0].critical then 1 else 0) + CountCritical(cs[1..])
  }

  predicate Distinct(fs: seq<Field>) {
    forall i, j :: 0 <= i < j < |fs| ==> fs[i] != fs[j]
  }

  lemma HeadNotInTail(fs: seq<Field>)
    requires Distinct(fs) && |fs| > 0
    ensures fs[0] !in fs[1..]
  {
  }

  lemma {:induction false} CountFailedFor(fs: seq<Field>, errors: map<Field, Issue>)
    requires Distinct(fs)
    ensures CountFailed(ChecksFor(fs, errors)) == |set f | f in fs && f in errors|
  {
    if |fs| > 0 {
      var tail := fs[1..];
      CountFailedFor(tail, errors);
      assert ChecksFor(fs, errors)[1..] == ChecksFor(tail, errors);
      FailedSetCons(fs, errors);
    } else {
      assert (set f | f in fs && f in errors) == {};
    }
  }

  /** The failed fields of a list: its head's, if any, and those of its tail. */
  lemma FailedSetCons(fs: seq<Field>, errors: map<Field, Issue>)
    requires Distinct(fs) && |fs| > 0
    ensures |set f | f in fs && f in errors|
            == (if fs[0] in errors then 1 else 0) + |set f | f in fs[1..] && f in errors|
  {
    HeadNotInTail(fs);
    var all := set f | f in fs && f in errors;
    var allT := set f | f in fs[1..] && f in errors;
    if fs[0] in errors {
      assert all == allT + {fs[0]};
    } else {
      assert all == allT;
    }
  }

  /** A critical failure is a failure once the advisory progress entry is dropped. */
  lemma {:induction false} CountCriticalFor(fs: seq<Field>, errors: map<Field, Issue>)
    ensures CountCritical(ChecksFor(fs, errors)) == CountFailed(ChecksFor(fs, errors - {ProgressField}))
  {
    if |fs| > 0 {
      CountCriticalFor(fs[1..], errors);
      assert ChecksFor(fs, errors)[1..] == ChecksFor(fs[1..], errors);
      assert ChecksFor(fs, errors - {ProgressField})[1..] == ChecksFor(fs[1..], errors - {ProgressField});
    }
  }

  /** Every field of an error record is among the five checked fields. */
  lemma ErrorKeys(errors: map<Field, Issue>)
    ensures errors.Keys == set f | f in FieldOrder && f in errors
  {
    forall f | f in errors ensures f in FieldOrder {
      match f
      case NameField => assert FieldOrder[0] == f;
      case RoleField => assert FieldOrder[1] == f;
      case SkillsField => assert FieldOrder[2] == f;
      case AreasField => assert FieldOrder[3] == f;
      case ProgressField => assert FieldOrder[4] == f;
    }
  }

  /**
   * The summary counters: failed checks are exactly the error keys, and
   * critical ones are the error keys other than progress.
   */
  lemma CheckCounts(errors: map<Field, Issue>)
    ensures CountFailed(Checks(errors)) == |errors|
    ensures CountCritical(Checks(errors)) == |errors.Keys - {ProgressField}|
    ensures CountFailed(Checks(errors)) == 0 <==> errors == map[]
    ensures CountCritical(Checks(errors)) == 0 <==> errors.Keys <= {ProgressField}
  {
    var rest := errors - {ProgressField};
    CountFailedFor(FieldOrder, errors);
    CountFailedFor(FieldOrder, rest);
    CountCriticalFor(FieldOrder, errors);
    ErrorKeys(errors);
    ErrorKeys(rest);
    assert rest.Keys == errors.Keys - {ProgressField};
    if errors.Keys - {ProgressField} == {} {
      assert errors.Keys <= {ProgressField};
    }
    if errors != map[] {
      var f :| f in errors;
      assert f in errors.Keys;
    }
    if !(errors.Keys <= {ProgressField}) {
      var f :| f in errors.Keys && f != ProgressField;
      assert f in errors.Keys - {ProgressField};
    }
  }
}

=== FILE: profile_screen.dfy ===
/**
 * The profile form: its own, looser `validate` (required fields only, no
 * length caps, progress clamped to [0, 1] and left missing when missing), the
 * interest-area list it edits, and the choice between saving the normalised
 * record and sending the raw draft to the validation screen.
 */
module ProfileScreen {
  import opened Wrappers
  import opened Text
  import Skills
  import opened Seqs
  import opened Profile
  import Strict = ValidateProfileScreen
  import Lenient = ValidateProfile

  /** The interest areas the picker offers (besides the empty placeholder). */
  const AreaOptions: seq<string> := [
    "Inteligência Artificial", "Desenvolvimento Web", "Desenvolvimento Mobile",
    "Ciência de Dados", "DevOps", "UX/UI Design", "Gestão de Projetos",
    "Marketing Digital", "Sustentabilidade", "Soft Skills", "Cloud Computing",
    "Cybersecurity"]

  /** The argument of `validate`: every text present, progress optional. */
  datatype FormDraft = FormDraft(
    name: string,
    role: string,
    skills: string,
    progress: Option<real>,
    areas: seq<string>)

  function Required(missing: bool): Option<Issue> {
    if missing then Some(Missing) else None
  }

  /** The `errors` record of the form: empty fields and out-of-range progress only. */
  function Errors(f: FormDraft): (errors: map<Field, Issue>)
    ensures NameField in errors <==> Trim(f.name) == ""
    ensures RoleField in errors <==> Trim(f.role) == ""
    ensures SkillsField in errors <==> Skills.Normalize(f.skills) == []
    ensures AreasField in errors <==> f.areas == []
    ensures ProgressField in errors <==> f.progress.Some? && (f.progress.value < 0.0 || f.progress.value > 1.0)
    ensures NameField in errors ==> errors[NameField] == Missing
    ensures RoleField in errors ==> errors[RoleField] == Missing
    ensures SkillsField in errors ==> errors[SkillsField] == Missing
    ensures AreasField in errors ==> errors[AreasField] == Missing
    ensures ProgressField in errors ==> errors[ProgressField] == OutOfRange
  {
    var progressOk := match f.progress
      case None => true
      case Some(p) => 0.0 <= p <= 1.0;
    Collect(
      Required(Trim(f.name) == ""),
      Required(Trim(f.role) == ""),
      Required(Skills.Normalize(f.skills) == []),
      Required(f.areas == []),
      if progressOk then None else Some(OutOfRange))
  }

  /** The form's `normalized` record: no floor, no area cap, missing progress stays missing. */
  function Normalized(f: FormDraft): (n: Profile)
    ensures n.name == Trim(f.name) && n.role == Trim(f.role)
    ensures Skills.Normalize(n.skills) == Skills.Normalize(f.skills)
    ensures n.skills == Skills.Join(Skills.Normalize(f.skills))
    ensures n.progress.Some? <==> f.progress.Some?
    ensures n.progress.Some? ==> 0.0 <= n.progress.value <= 1.0
    ensures f.progress.Some? ==> n.progress == Some(Clamp(0.0, f.progress.value))
    ensures f.progress.Some? && 0.0 <= f.progress.value <= 1.0 ==> n.progress == f.progress
    ensures n.areas == f.areas
  {
    var progress := match f.progress
      case None => None
      case Some(p) => Some(Clamp(0.0, p));
    Profile(Trim(f.name), Trim(f.role), NormalizedSkills(f.skills), progress, f.areas)
  }

  /** `validate(draft)` of the form. */
  function Validate(f: FormDraft): (r: Report)
    ensures r.ok <==>
      Trim(f.name) != "" && Trim(f.role) != "" && Skills.Normalize(f.skills) != [] && f.areas != []
      && (f.progress.Some? ==> 0.0 <= f.progress.value <= 1.0)
    ensures r.errors == Errors(f) && r.normalized == Normalized(f)
    ensures r.normalized.areas == f.areas
    ensures r.normalized.progress.Some? <==> f.progress.Some?
    ensures r.normalized.progress.Some? ==> 0.0 <= r.normalized.progress.value <= 1.0
  {
    var errors := Errors(f);
    NoErrorKeys(errors);
    Report(errors == map[], errors, Normalized(f))
  }

  /** The form draft as the validation screens receive it. */
  function AsDraft(f: FormDraft): Draft {
    Draft(Some(f.name), Some(f.role), Some(f.skills), f.progress, Some(f.areas))
  }

  /** Anything the second validation screen accepts, the form accepts too. */
  lemma LenientOkImpliesOk(f: FormDraft)
    requires Lenient.Validate(AsDraft(f)).ok
    ensures Validate(f).ok
  {
    var d := AsDraft(f);
    var e := Lenient.Errors(d);
    assert NameField !in e && RoleField !in e && SkillsField !in e && AreasField !in e && ProgressField !in e;
    assert Trim(f.name) != "";
    assert Trim(f.role) != "";
  }

  /** So is anything the stricter screen accepts. */
  lemma StrictOkImpliesOk(f: FormDraft)
    requires Strict.Validate(AsDraft(f)).ok
    ensures Validate(f).ok
  {
    Lenient.StrictOkImpliesOk(AsDraft(f));
    LenientOkImpliesOk(f);
  }

  /** A one-letter name: fine for the form, too short for the validation screens. */
  const OneLetterForm := FormDraft("A", "Dev", "Java", None, ["DevOps"])

  lemma OneLetterNameDisagreement()
    ensures Validate(OneLetterForm).ok
    ensures !Lenient.Validate(AsDraft(OneLetterForm)).ok
  {
    assert IsTrimmed("A") && IsTrimmed("Dev");
    assert Trim("A") == "A";
    assert Utf16Length("A") == 1;
    assert Skills.IsToken("Java");
    Skills.NormalizeJoin(["Java"]);
    assert NameField in Lenient.Errors(AsDraft(OneLetterForm));
  }

  /** The picker's current choice and the chosen areas. */
  datatype AreaPicker = AreaPicker(selected: string, areas: seq<string>)

  /** `addAreaInteresse`: append a non-empty, not yet chosen area and clear the choice. */
  function AddArea(p: AreaPicker): (r: AreaPicker)
    ensures |p.areas| <= |r.areas| <= |p.areas| + 1 && r.areas[..|p.areas|] == p.areas
    ensures forall x :: x in r.areas <==> x in p.areas || (x == p.selected && p.selected != "")
    ensures NoDuplicates(p.areas) ==> NoDuplicates(r.areas)
    ensures |r.areas| > |p.areas| <==> p.selected != "" && p.selected !in p.areas
    ensures |r.areas| > |p.areas| ==> r.selected == ""
    ensures |r.areas| == |p.areas| ==> r == p
  {
    if p.selected != "" && p.selected !in p.areas then
      AreaPicker("", p.areas + [p.selected])
    else
      p
  }

  /** `removeAreaInteresse(area)`: drop every copy of `area`, keep the rest in order. */
  function RemoveArea(areas: seq<string>, area: string): (r: seq<string>)
    ensures forall x :: x in r <==> x in areas && x != area
    ensures IsSubsequence(r, areas)
    ensures NoDuplicates(areas) ==> NoDuplicates(r)
    ensures area !in areas ==> r == areas
  {
    Without(areas, area)
  }

  /** Removing the area just added restores the list. */
  lemma RemoveUndoesAdd(p: AreaPicker)
    requires p.selected != "" && p.selected !in p.areas
    ensures RemoveArea(AddArea(p).areas, p.selected) == p.areas
  {
    RemoveAppended(p.areas, p.selected);
  }

  lemma {:induction false} RemoveAppended(areas: seq<string>, x: string)
    requires x !in areas
    ensures RemoveArea(areas + [x], x) == areas
  {
    if |areas| > 0 {
      assert (areas + [x])[1..] == areas[1..] + [x];
      RemoveAppended(areas[1..], x);
    } else {
      assert RemoveArea([x], x) == RemoveArea([], x);
    }
  }

  /** Chosen areas drawn from the picker's options, without repeats. */
  predicate PickedFromOptions(areas: seq<string>) {
    NoDuplicates(areas) && forall x :: x in areas ==> x in AreaOptions
  }

  /**
   * Adding from the picker and removing keep the list repeat-free and within
   * the options, so it never holds more than twelve areas: more than the five
   * the validation screens accept.
   */
  lemma PickerInvariant(p: AreaPicker, area: string)
    requires PickedFromOptions(p.areas)
    requires p.selected == "" || p.selected in AreaOptions
    ensures PickedFromOptions(AddArea(p).areas)
    ensures PickedFromOptions(RemoveArea(p.areas, area))
    ensures |AddArea(p).areas| <= |AreaOptions| == 12
  {
    DrawnFromBound(AddArea(p).areas, AreaOptions);
  }

  /** The form's state when the update button is pressed. */
  datatype FormState = FormState(
    name: string,
    role: string,
    skills: string,
    progress: real,
    picker: AreaPicker)

  /** Either the profile is saved, or the raw draft goes to the validation screen. */
  datatype UpdateOutcome = Saved(profile: Profile) | Redirected(draft: Draft)

  function DraftOf(s: FormState): FormDraft {
    FormDraft(s.name, s.role, s.skills, Some(s.progress), s.picker.areas)
  }

  /** `onUpdate`. */
  function OnUpdate(s: FormState): (o: UpdateOutcome)
    ensures o.Saved? <==> Validate(DraftOf(s)).ok
    ensures o.Saved? ==> o.profile.areas == s.picker.areas && o.profile.name == Trim(s.name)
    ensures o.Saved? ==> o.profile.progress == Some(s.progress)
    ensures o.Saved? ==> o.profile == Normalized(DraftOf(s))
    ensures o.Redirected? ==> o.draft == Draft(Some(s.name), Some(s.role), Some(s.skills), Some(s.progress), Some(s.picker.areas))
  {
    var r := Validate(DraftOf(s));
    if r.ok then Saved(r.normalized) else Redirected(AsDraft(DraftOf(s)))
  }

  /**
   * The validation screen a redirect lands on always has something to show:
   * what the form rejects, that screen rejects too.
   */
  lemma RedirectShowsProblem(s: FormState)
    requires OnUpdate(s).Redirected?
    ensures !Strict.Validate(OnUpdate(s).draft).ok
    ensures Strict.Summarize(Strict.Validate(OnUpdate(s).draft)).status == Strict.Pending
  {
    if Strict.Validate(AsDraft(DraftOf(s))).ok {
      StrictOkImpliesOk(DraftOf(s));
    }
  }
}

=== FILE: quiz.dfy ===
/**
 * The eight-question career quiz: every option key scores one point for the
 * category its key names, and the best category becomes the career label.
 */
module Quiz {
  import opened Answers
  import Careers

  /** The keys of `scores`, in their declared order. */
  datatype Category = Software | Ux | Data | Gestao

  const Categories: seq<Category> := [Software, Ux, Data, Gestao]

  /** Position in the declared order; a tie goes to the smaller rank. */
  function Rank(c: Category): (k: nat)
    ensures k < |Categories| && Categories[k] == c
  {
    match c
    case Software => 0
    case Ux => 1
    case Data => 2
    case Gestao => 3
  }

  /** The property name of the category, which is also the option-key suffix. */
  function Key(c: Category): string {
    match c
    case Software => "software"
    case Ux => "ux"
    case Data => "data"
    case Gestao => "gestao"
  }

  datatype Question = Question(id: string, options: seq<string>)

  /** The option keys of `QUESTIONS`, in display order. */
  const Questions: seq<Question> := [
    Question("q1", ["q1_software", "q1_ux", "q1_data", "q1_gestao"]),
    Question("q2", ["q2_software", "q2_ux", "q2_data", "q2_gestao"]),
    Question("q3", ["q3_software", "q3_ux", "q3_data", "q3_gestao"]),
    Question("q4", ["q4_software", "q4_ux", "q4_data", "q4_gestao"]),
    Question("q5", ["q5_software", "q5_ux", "q5_data", "q5_gestao"]),
    Question("q6", ["q6_software", "q6_ux", "q6_data", "q6_gestao"]),
    Question("q7", ["q7_software", "q7_ux", "q7_data", "q7_gestao"]),
    Question("q8", ["q8_software", "q8_ux", "q8_data", "q8_gestao"])]

  /** `scoringMap`: which category an option key scores for. */
  const ScoringMap: map<string, Category> := map[
    "q1_software" := Software, "q2_software" := Software,
    "q3_software" := Software, "q4_software" := Software,
    "q5_software" := Software, "q6_software" := Software,
    "q7_software" := Software, "q8_software" := Software,
    "q1_ux" := Ux, "q2_ux" := Ux, "q3_ux" := Ux, "q4_ux" := Ux,
    "q5_ux" := Ux, "q6_ux" := Ux, "q7_ux" := Ux, "q8_ux" := Ux,
    "q1_data" := Data, "q2_data" := Data, "q3_data" := Data, "q4_data" := Data,
    "q5_data" := Data, "q6_data" := Data, "q7_data" := Data, "q8_data" := Data,
    "q1_gestao" := Gestao, "q2_gestao" := Gestao,
    "q3_gestao" := Gestao, "q4_gestao" := Gestao,
    "q5_gestao" := Gestao, "q6_gestao" := Gestao,
    "q7_gestao" := Gestao, "q8_gestao" := Gestao]

  /** Whether answer `v` scores for `c` under `table`. */
  predicate ScoresFor(table: map<string, Category>, v: string, c: Category) {
    v in table && table[v] == c
  }

  /** The `scores` object. */
  datatype Scores = Scores(software: nat, ux: nat, data: nat, gestao: nat)
  {
    function Get(c: Category): nat {
      match c
      case Software => software
      case Ux => ux
      case Data => data
      case Gestao => gestao
    }

    function Total(): nat {
      software + ux + data + gestao
    }

    function Plus(o: Scores): (r: Scores)
      ensures forall c :: r.Get(c) == Get(c) + o.Get(c)
    {
      Scores(software + o.software, ux + o.ux, data + o.data, gestao + o.gestao)
    }
  }

  const Zero := Scores(0, 0, 0, 0)

  /** What one answer contributes: a point for its category, or nothing. */
  function Point(table: map<string, Category>, v: string): (s: Scores)
    ensures forall c :: s.Get(c) == if ScoresFor(table, v, c) then 1 else 0
  {
    if v !in table then Zero
    else match table[v]
      case Software => Scores(1, 0, 0, 0)
      case Ux => Scores(0, 1, 0, 0)
      case Data => Scores(0, 0, 1, 0)
      case Gestao => Scores(0, 0, 0, 1)
  }

  /** The `values.forEach` loop, starting from all zeroes. */
  function Tally(table: map<string, Category>, values: seq<string>): (s: Scores)
  {
    if |values| == 0 then Zero
    else Tally(table, values[..|values| - 1]).Plus(Point(table, values[|values| - 1]))
  }

  /** The positions of the answers that score for `c`. */
  function Hits(table: map<string, Category>, values: seq<string>, c: Category): set<nat> {
    set i: nat | i < |values| && ScoresFor(table, values[i], c)
  }

  /** At most one point per answer: the scores sum to at most the number of answers. */
  lemma {:induction false} TallyTotal(table: map<string, Category>, values: seq<string>)
    ensures Tally(table, values).Total() <= |values|
  {
    if |values| > 0 {
      var n := |values| - 1;
      TallyTotal(table, values[..n]);
      var t, p := Tally(table, values[..n]), Point(table, values[n]);
      assert p.Total() <= 1 by {
        if values[n] in table { assert p.Get(table[values[n]]) == 1; }
      }
      assert Tally(table, values) == t.Plus(p);
      assert t.Plus(p).Total() == t.Total() + p.Total();
    }
  }

  /** The last answer adds its point to the tally of the others. */
  lemma TallyStep(table: map<string, Category>, values: seq<string>, c: Category)
    requires |values| > 0
    ensures Tally(table, values).Get(c)
            == Tally(table, values[..|values| - 1]).Get(c) + (if ScoresFor(table, values[|values| - 1], c) then 1 else 0)
  {
  }

  /** The hits among all answers are those among the earlier ones, plus the last if it scores. */
  lemma HitsSet(table: map<string, Category>, values: seq<string>, c: Category)
    requires |values| > 0
    ensures Hits(table, values, c)
            == Hits(table, values[..|values| - 1], c) + (if ScoresFor(table, values[|values| - 1], c) then {|values| - 1} else {})
  {
    var n := |values| - 1;
    var init := values[..n];
    forall i: nat | i < n ensures values[i] == init[i] { }
  }

  /** The last answer adds its own position to the hits, or nothing. */
  lemma HitsStep(table: map<string, Category>, values: seq<string>, c: Category)
    requires |values| > 0
    ensures |Hits(table, values, c)|
            == |Hits(table, values[..|values| - 1], c)| + (if ScoresFor(table, values[|values| - 1], c) then 1 else 0)
  {
    HitsSet(table, values, c);
    assert |values| - 1 !in Hits(table, values[..|values| - 1], c);
  }

  /** Each category's score is the number of answers that score for it. */
  lemma {:induction false} TallyCounts(table: map<string, Category>, values: seq<string>, c: Category)
    ensures Tally(table, values).Get(c) == |Hits(table, values, c)|
  {
    if |values| > 0 {
      TallyCounts(table, values[..|values| - 1], c);
      TallyStep(table, values, c);
      HitsStep(table, values, c);
    }
  }

  /** Appending one answer adds its point and nothing else. */
  lemma TallySnoc(table: map<string, Category>, values: seq<string>, v: string)
    ensures Tally(table, values + [v]) == Tally(table, values).Plus(Point(table, v))
  {
    assert (values + [v])[..|values|] == values;
  }

  /** The tally of a concatenation is the sum of the tallies. */
  lemma {:induction false} TallyAppend(table: map<string, Category>, a: seq<string>, b: seq<string>)
    ensures Tally(table, a + b) == Tally(table, a).Plus(Tally(table, b))
  {
    if |b| == 0 {
      assert a + b == a;
    } else {
      var n := |b| - 1;
      assert a + b == (a + b[..n]) + [b[n]];
      TallySnoc(table, a + b[..n], b[n]);
      TallyAppend(table, a, b[..n]);
      TallySnoc(table, b[..n], b[n]);
      assert b[..n] + [b[n]] == b;
    }
  }

  /** Removing the answer at `k` takes its point out of the tally. */
  lemma TallyRemove(table: map<string, Category>, b: seq<string>, k: nat)
    requires k < |b|
    ensures Tally(table, b) == Tally(table, b[..k] + b[k + 1..]).Plus(Point(table, b[k]))
  {
    var x, front, back := b[k], b[..k], b[k + 1..];
    assert b == front + ([x] + back);
    TallyAppend(table, front, [x] + back);
    TallyAppend(table, [x], back);
    TallyAppend(table, front, back);
    TallySnoc(table, [], x);
    assert [] + [x] == [x];
    var f, r, p := Tally(table, front), Tally(table, back), Point(table, x);
    assert Tally(table, b) == f.Plus(p.Plus(r));
    assert f.Plus(p.Plus(r)) == f.Plus(r).Plus(p);
  }

  /** Taking one copy of the same element out of two permutations leaves permutations. */
  lemma RemoveMatching<T>(a: seq<T>, b: seq<T>, k: nat)
    requires multiset(a) == multiset(b) && |a| > 0 && k < |b| && b[k] == a[|a| - 1]
    ensures multiset(a[..|a| - 1]) == multiset(b[..k] + b[k + 1..])
  {
    var n := |a| - 1;
    var x := a[n];
    var rest := b[..k] + b[k + 1..];
    assert a == a[..n] + [x];
    assert b == b[..k] + [x] + b[k + 1..];
    assert multiset(a) == multiset(a[..n]) + multiset{x};
    assert multiset(b) == multiset(b[..k]) + multiset{x} + multiset(b[k + 1..]);
    assert multiset(rest) == multiset(b[..k]) + multiset(b[k + 1..]);
    forall y ensures multiset(a[..n])[y] == multiset(rest)[y] {
      assert multiset(a)[y] == multiset(a[..n])[y] + multiset{x}[y];
      assert multiset(b)[y] == multiset(rest)[y] + multiset{x}[y];
    }
  }

  /** The order in which the questions were answered does not matter. */
  lemma {:induction false} TallyPermutation(table: map<string, Category>, a: seq<string>, b: seq<string>)
    requires multiset(a) == multiset(b)
    ensures Tally(table, a) == Tally(table, b)
    decreases |a|
  {
    if |a| == 0 {
      assert |b| == |multiset(b)| == 0;
    } else {
      var n := |a| - 1;
      var x := a[n];
      assert x in multiset(b);
      var k :| 0 <= k < |b| && b[k] == x;
      RemoveMatching(a, b, k);
      TallyPermutation(table, a[..n], b[..k] + b[k + 1..]);
      TallyRemove(table, b, k);
    }
  }

  /**
   * `Object.entries(scores).sort((a, b) => b[1] - a[1])[0][0]`: the stable
   * descending sort puts first the earliest category among those with the
   * highest score.
   */
  function Best(s: Scores): (c: Category)
    ensures forall d :: s.Get(d) <= s.Get(c)
    ensures forall d :: Rank(d) < Rank(c) ==> s.Get(d) < s.Get(c)
  {
    var a := Software;
    var b := if s.Get(Ux) > s.Get(a) then Ux else a;
    var d := if s.Get(Data) > s.Get(b) then Data else b;
    if s.Get(Gestao) > s.Get(d) then Gestao else d
  }

  /** Only one category is both a maximum and earlier than every other maximum. */
  lemma BestUnique(s: Scores, c: Category)
    requires forall d :: s.Get(d) <= s.Get(c)
    requires forall d :: Rank(d) < Rank(c) ==> s.Get(d) < s.Get(c)
    ensures Best(s) == c
  {
  }

  /** The label chain after the sort. */
  function Label(c: Category): (career: string)
    ensures career in Careers.Recommendations
  {
    match c
    case Software => Careers.SoftwareEngineering
    case Ux => Careers.UxDesign
    case Data => Careers.DataScience
    case Gestao => Careers.ProjectManagement
  }

  /** Different categories have different labels. */
  lemma LabelInjective(c: Category, d: Category)
    requires Label(c) == Label(d)
    ensures c == d
  {
  }

  /** The scores `handleSubmit` computes from `Object.values(answers)`. */
  function Scoring(answers: AnswerList): (s: Scores)
    ensures s.Total() <= |answers|
    ensures forall c :: s.Get(c) == |Hits(ScoringMap, Values(answers), c)|
  {
    var vs := Values(answers);
    var s := Tally(ScoringMap, vs);
    TallyTotal(ScoringMap, vs);
    CountAll(ScoringMap, vs);
    s
  }

  lemma CountAll(table: map<string, Category>, values: seq<string>)
    ensures forall c :: Tally(table, values).Get(c) == |Hits(table, values, c)|
  {
    forall c ensures Tally(table, values).Get(c) == |Hits(table, values, c)| {
      TallyCounts(table, values, c);
    }
  }

  /** The career stored under "result" by `handleSubmit`. */
  function Result(answers: AnswerList): (career: string)
    ensures career in {Careers.SoftwareEngineering, Careers.UxDesign,
                       Careers.DataScience, Careers.ProjectManagement}
    ensures career in Careers.Recommendations
    ensures exists c :: career == Label(c) && IsWinner(Scoring(answers), c)
  {
    var c := Best(Scoring(answers));
    Label(c)
  }

  /** `c` has the highest score and beats every earlier category. */
  predicate IsWinner(s: Scores, c: Category) {
    (forall d :: s.Get(d) <= s.Get(c)) && (forall d :: Rank(d) < Rank(c) ==> s.Get(d) < s.Get(c))
  }

  /** With no answers every score is 0 and software wins the tie. */
  lemma EmptyAnswersGiveSoftware()
    ensures Result([]) == Careers.SoftwareEngineering
  {
    var s := Scoring([]);
    forall c ensures s.Get(c) == 0 {
      assert Hits(ScoringMap, Values([]), c) == {};
    }
    BestUnique(s, Software);
  }

  /**
   * When every answer that scores at all scores for `c`, and one does, the
   * result is `c`'s label.
   */
  lemma {:induction false} UnanimousAnswers(answers: AnswerList, c: Category)
    requires forall i :: 0 <= i < |answers| && answers[i].option in ScoringMap ==> ScoresFor(ScoringMap, answers[i].option, c)
    requires exists i :: 0 <= i < |answers| && ScoresFor(ScoringMap, answers[i].option, c)
    ensures Result(answers) == Label(c)
  {
    var vs := Values(answers);
    var k :| 0 <= k < |answers| && ScoresFor(ScoringMap, answers[k].option, c);
    UnanimousHits(ScoringMap, vs, c, k);
    var s := Scoring(answers);
    assert s.Get(c) > 0;
    BestUnique(s, c);
  }

  /** When every scoring answer scores for `c` and answer `k` does, only `c` has hits. */
  lemma UnanimousHits(table: map<string, Category>, vs: seq<string>, c: Category, k: nat)
    requires forall i :: 0 <= i < |vs| && vs[i] in table ==> ScoresFor(table, vs[i], c)
    requires k < |vs| && ScoresFor(table, vs[k], c)
    ensures forall d :: d != c ==> Hits(table, vs, d) == {}
    ensures k in Hits(table, vs, c)
  {
  }

  /**
   * A question offers, in declared category order, the option "<id>_<category>"
   * for each category, and `scoringMap` scores that option for that category.
   */
  predicate WellKeyed(q: Question) {
    |q.options| == |Categories|
    && forall j :: 0 <= j < |Categories| ==>
         q.options[j] == q.id + "_" + Key(Categories[j]) && ScoresFor(ScoringMap, q.options[j], Categories[j])
  }

  /** The four option keys of a question, checked one by one. */
  lemma KeyedByParts(q: Question, s: string, u: string, d: string, g: string)
    requires q.options == [s, u, d, g]
    requires s == q.id + "_" + "software" && ScoresFor(ScoringMap, s, Software)
    requires u == q.id + "_" + "ux" && ScoresFor(ScoringMap, u, Ux)
    requires d == q.id + "_" + "data" && ScoresFor(ScoringMap, d, Data)
    requires g == q.id + "_" + "gestao" && ScoresFor(ScoringMap, g, Gestao)
    ensures WellKeyed(q)
  {
  }

  lemma Question1Keyed()
    ensures WellKeyed(Questions[0])
  {
    KeyedByParts(Questions[0], "q1_software", "q1_ux", "q1_data", "q1_gestao");
  }

  lemma Question2Keyed()
    ensures WellKeyed(Questions[1])
  {
    KeyedByParts(Questions[1], "q2_software", "q2_ux", "q2_data", "q2_gestao");
  }

  lemma Question3Keyed()
    ensures WellKeyed(Questions[2])
  {
    KeyedByParts(Questions[2], "q3_software", "q3_ux", "q3_data", "q3_gestao");
  }

  lemma Question4Keyed()
    ensures WellKeyed(Questions[3])
  {
    KeyedByParts(Questions[3], "q4_software", "q4_ux", "q4_data", "q4_gestao");
  }

  lemma Question5Keyed()
    ensures WellKeyed(Questions[4])
  {
    KeyedByParts(Questions[4], "q5_software", "q5_ux", "q5_data", "q5_gestao");
  }

  lemma Question6Keyed()
    ensures WellKeyed(Questions[5])
  {
    KeyedByParts(Questions[5], "q6_software", "q6_ux", "q6_data", "q6_gestao");
  }

  lemma Question7Keyed()
    ensures WellKeyed(Questions[6])
  {
    KeyedByParts(Questions[6], "q7_software", "q7_ux", "q7_data", "q7_gestao");
  }

  lemma Question8Keyed()
    ensures WellKeyed(Questions[7])
  {
    KeyedByParts(Questions[7], "q8_software", "q8_ux", "q8_data", "q8_gestao");
  }

  /**
   * Every offered option key is scored, for the category its "_<category>"
   * suffix names.
   */
  lemma OptionsAreScored()
    ensures forall i :: 0 <= i < |Questions| ==> WellKeyed(Questions[i])
  {
    Question1Keyed();
    Question2Keyed();
    Question3Keyed();
    Question4Keyed();
    Question5Keyed();
    Question6Keyed();
    Question7Keyed();
    Question8Keyed();
  }
}

=== FILE: recs.dfy ===
/**
 * The recommendations screen: the career stored by a quiz and the course
 * titles recommended for it.
 */
module Recs {
  import opened Wrappers
  import opened Answers
  import Careers
  import Quiz
  import TestScreen

  /** The outcome of reading "result" from storage: a failure, or the stored value if any. */
  datatype Read = Failed | Stored(value: Option<string>)

  datatype RecsState = RecsState(career: Option<string>, loading: bool, recommended: seq<string>)

  const Initial := RecsState(None, true, [])

  /** Whether the read produced a career: a stored, non-empty value (`if (stored)`). */
  predicate HasStoredCareer(read: Read) {
    read.Stored? && read.value.Some? && read.value.value != ""
  }

  /**
   * `load`: a stored career is shown with its table entry (empty when it is
   * not a key); otherwise the career is cleared and the previous
   * recommendations are left as they were. Loading ends either way.
   */
  function Load(prev: RecsState, read: Read): (s: RecsState)
    ensures !s.loading
    ensures HasStoredCareer(read) ==> s.career == read.value
    ensures HasStoredCareer(read) && read.value.value in Careers.Recommendations ==>
              s.recommended == Careers.Recommendations[read.value.value]
    ensures HasStoredCareer(read) && read.value.value !in Careers.Recommendations ==> s.recommended == []
    ensures !HasStoredCareer(read) ==> s.career == None && s.recommended == prev.recommended
  {
    match read
    case Failed => prev.(career := None, loading := false)
    case Stored(v) =>
      if v.Some? && v.value != "" then
        RecsState(v, false, Careers.RecommendedTitles(v.value))
      else prev.(career := None, loading := false)
  }

  /** `!!career && !loading`. */
  predicate HasCareer(s: RecsState) {
    s.career.Some? && s.career.value != "" && !s.loading
  }

  /** After a load the screen shows a career exactly when a non-empty one was stored. */
  lemma LoadShowsCareer(prev: RecsState, read: Read)
    ensures HasCareer(Load(prev, read)) <==> HasStoredCareer(read)
  {
  }

  /** Before the first load finishes no career is shown. */
  lemma InitialShowsNothing()
    ensures !HasCareer(Initial)
  {
  }

  /** Whatever the eight-question quiz stores has a non-empty recommendation list. */
  lemma QuizResultHasRecommendations(prev: RecsState, answers: AnswerList)
    ensures |Load(prev, Stored(Some(Quiz.Result(answers)))).recommended| > 0
  {
    Careers.TableListsNonEmpty();
  }

  /** Whatever the older test stores has a non-empty recommendation list. */
  lemma TestResultHasRecommendations(prev: RecsState, answers: AnswerList)
    ensures |Load(prev, Stored(Some(TestScreen.Submit(answers)))).recommended| > 0
  {
    Careers.TableListsNonEmpty();
  }
}

=== FILE: seqs.dfy ===
/** Facts about lists used by the list-editing and list-filtering screens. */
module Seqs {

  predicate NoDuplicates<T(==)>(s: seq<T>) {
    forall i, j :: 0 <= i < j < |s| ==> s[i] != s[j]
  }

  /** `a` is `b` with some entries left out, the rest in their original order. */
  predicate IsSubsequence<T(==)>(a: seq<T>, b: seq<T>)
    decreases |b|
  {
    |a| == 0 || (|b| > 0 && if a[0] == b[0] then IsSubsequence(a[1..], b[1..]) else IsSubsequence(a, b[1..]))
  }

  /**
   * `s.filter(y => y !== x)`: every copy of `x` dropped, every other entry
   * kept as often as it occurs and in its original order.
   */
  function Without<T(==,!new)>(s: seq<T>, x: T): (r: seq<T>)
    ensures forall y :: y in r <==> y in s && y != x
    ensures forall y :: y != x ==> multiset(r)[y] == multiset(s)[y]
    ensures IsSubsequence(r, s)
    ensures NoDuplicates(s) ==> NoDuplicates(r)
    ensures x !in s ==> r == s
  {
    if |s| == 0 then []
    else
      var rest := Without(s[1..], x);
      if s[0] == x then
        DropHead(s, x, rest);
        rest
      else
        KeepHead(s, x, rest);
        [s[0]] + rest
  }

  /** The filter's promise: `r` is `s` with every copy of `x` dropped. */
  ghost predicate Filtered<T(!new)>(r: seq<T>, s: seq<T>, x: T) {
    (forall y :: y in r <==> y in s && y != x)
    && (forall y :: y != x ==> multiset(r)[y] == multiset(s)[y])
    && IsSubsequence(r, s)
    && (NoDuplicates(s) ==> NoDuplicates(r))
    && (x !in s ==> r == s)
  }

  /** A head equal to `x` is dropped. */
  lemma DropHead<T(!new)>(s: seq<T>, x: T, rest: seq<T>)
    requires |s| > 0 && s[0] == x && Filtered(rest, s[1..], x)
    ensures Filtered(rest, s, x)
  {
    assert s == [s[0]] + s[1..];
    assert forall y :: y in s <==> y == s[0] || y in s[1..];
    SubsequenceElements(rest, s[1..]);
    if NoDuplicates(s) {
      assert NoDuplicates(s[1..]) by {
        forall i, j | 0 <= i < j < |s[1..]| ensures s[1..][i] != s[1..][j] {
          assert s[1..][i] == s[i + 1] && s[1..][j] == s[j + 1];
        }
      }
    }
  }

  /** Any other head is kept in front of the filtered tail. */
  lemma KeepHead<T(!new)>(s: seq<T>, x: T, rest: seq<T>)
    requires |s| > 0 && s[0] != x && Filtered(rest, s[1..], x)
    ensures Filtered([s[0]] + rest, s, x)
  {
    assert s == [s[0]] + s[1..];
    assert forall y :: y in s <==> y == s[0] || y in s[1..];
    assert ([s[0]] + rest)[1..] == rest;
    if NoDuplicates(s) {
      assert s[0] !in s[1..];
      assert NoDuplicates(s[1..]) by {
        forall i, j | 0 <= i < j < |s[1..]| ensures s[1..][i] != s[1..][j] {
          assert s[1..][i] == s[i + 1] && s[1..][j] == s[j + 1];
        }
      }
      NoDuplicatesCons(s[0], rest);
    }
  }

  /** A non-empty list is its head in front of its tail. */
  lemma HeadTail<T>(s: seq<T>)
    requires |s| > 0
    ensures s == [s[0]] + s[1..]
  {
  }

  lemma NoDuplicatesCons<T>(h: T, s: seq<T>)
    requires NoDuplicates(s) && h !in s
    ensures NoDuplicates([h] + s)
  {
    assert forall i :: 0 < i <= |s| ==> ([h] + s)[i] == s[i - 1];
  }

  /** Filtering a list is filtering its head, then its tail. */
  lemma WithoutCons<T(!new)>(s: seq<T>, x: T)
    requires |s| > 0
    ensures Without(s, x) == (if s[0] == x then [] else [s[0]]) + Without(s[1..], x)
  {
  }

  lemma {:induction false} SubsequenceElements<T>(a: seq<T>, b: seq<T>)
    requires IsSubsequence(a, b)
    ensures |a| <= |b|
    ensures forall x :: x in a ==> x in b
    decreases |b|
  {
    if |a| > 0 {
      if a[0] == b[0] {
        SubsequenceElements(a[1..], b[1..]);
        forall x | x in a ensures x in b {
          if x != a[0] { assert x in a[1..]; assert x in b[1..]; }
        }
      } else {
        SubsequenceElements(a, b[1..]);
        forall x | x in a ensures x in b { assert x in b[1..]; }
      }
    }
  }

  lemma {:induction false} SubsequenceReflexive<T>(s: seq<T>)
    ensures IsSubsequence(s, s)
    decreases |s|
  {
    if |s| > 0 {
      SubsequenceReflexive(s[1..]);
    }
  }

  /** A list without repeats has as many distinct entries as it is long. */
  lemma {:induction false} DistinctCount<T>(s: seq<T>)
    requires NoDuplicates(s)
    ensures |set x | x in s| == |s|
    decreases |s|
  {
    if |s| > 0 {
      DistinctCount(s[1..]);
      var rest := set x | x in s[1..];
      assert s[0] !in rest;
      assert (set x | x in s) == rest + {s[0]};
    } else {
      assert (set x | x in s) == {};
    }
  }

  /** Any list has at most as many distinct entries as it is long. */
  lemma {:induction false} SetCountBound<T>(s: seq<T>)
    ensures |set x | x in s| <= |s|
    decreases |s|
  {
    if |s| > 0 {
      SetCountBound(s[1..]);
      assert (set x | x in s) == (set x | x in s[1..]) + {s[0]};
    } else {
      assert (set x | x in s) == {};
    }
  }

  /** A repeat-free list drawn from `pool` is no longer than `pool`. */
  lemma DrawnFromBound<T>(s: seq<T>, pool: seq<T>)
    requires NoDuplicates(s) && forall x :: x in s ==> x in pool
    ensures |s| <= |pool|
  {
    DistinctCount(s);
    SetCountBound(pool);
    assert (set x | x in s) <= (set x | x in pool);
    SubsetCardinality(set x | x in s, set x | x in pool);
  }

  lemma SubsetCardinality<T>(a: set<T>, b: set<T>)
    requires a <= b
    ensures |a| <= |b|
  {
    assert b == a + (b - a);
  }
}

=== FILE: skills.dfy ===
/**
 * `normalizeSkills`, written identically in the three profile screens: split the
 * raw text on `,` or `;`, trim every piece and drop the empty ones. Duplicates
 * are kept. The normalised list is stored back as one text joined with ", ".
 */
module Skills {
  import opened Text
  import Seqs

  predicate IsSeparator(c: char) {
    c == ',' || c == ';'
  }

  predicate NoSeparator(s: string) {
    forall i :: 0 <= i < |s| ==> !IsSeparator(s[i])
  }

  /** What a normalised skill looks like. */
  predicate IsToken(t: string) {
    |t| > 0 && NoSeparator(t) && IsTrimmed(t)
  }

  /** A non-empty word of ASCII letters is a token. */
  lemma LetterToken(t: string)
    requires |t| > 0 && forall i :: 0 <= i < |t| ==> 'A' <= t[i] <= 'z'
    ensures IsToken(t)
  {
    LetterWord(t);
  }

  predicate AllTokens(ts: seq<string>) {
    forall i :: 0 <= i < |ts| ==> IsToken(ts[i])
  }

  /** Position of the first separator. */
  function FirstSeparator(s: string): (i: nat)
    requires !NoSeparator(s)
    ensures i < |s| && IsSeparator(s[i]) && NoSeparator(s[..i])
  {
    if IsSeparator(s[0]) then 0
    else
      var j := FirstSeparator(s[1..]);
      assert s[..1 + j] == [s[0]] + s[1..][..j];
      1 + j
  }

  /** The separators of `s`, in order. */
  function Separators(s: string): (seps: seq<char>)
    ensures forall k :: 0 <= k < |seps| ==> IsSeparator(seps[k])
    ensures NoSeparator(s) <==> seps == []
  {
    if |s| == 0 then []
    else
      var rest := Separators(s[1..]);
      assert forall k :: 0 < k < |s| ==> s[k] == s[1..][k - 1];
      if IsSeparator(s[0]) then [s[0]] + rest else rest
  }

  /** The pieces glued back together with the separators between them. */
  function Interleave(pieces: seq<string>, seps: seq<char>): string
    requires |pieces| == |seps| + 1
    decreases |seps|
  {
    if |seps| == 0 then pieces[0]
    else pieces[0] + [seps[0]] + Interleave(pieces[1..], seps[1..])
  }

  /** The separators of a clean piece, one separator and a rest are that separator and the rest's. */
  lemma {:induction false} SeparatorsAfterPiece(a: string, c: char, b: string)
    requires NoSeparator(a) && IsSeparator(c)
    ensures Separators(a + [c] + b) == [c] + Separators(b)
    decreases |a|
  {
    var s := a + [c] + b;
    if |a| == 0 {
      assert s == [c] + b;
      assert s[1..] == b;
    } else {
      assert s[1..] == a[1..] + [c] + b;
      assert s[0] == a[0];
      SeparatorsAfterPiece(a[1..], c, b);
    }
  }

  /**
   * `s.split(/,|;/)`: the separator-free pieces between separators, one more
   * than there are separators; put back between the pieces, the separators
   * give the original text again.
   */
  function Split(s: string): (pieces: seq<string>)
    ensures |pieces| == |Separators(s)| + 1
    ensures forall i :: 0 <= i < |pieces| ==> NoSeparator(pieces[i])
    ensures Interleave(pieces, Separators(s)) == s
    ensures NoSeparator(s) <==> pieces == [s]
    decreases |s|
  {
    if NoSeparator(s) then [s]
    else
      var i := FirstSeparator(s);
      var a, b := s[..i], s[i + 1..];
      assert s == a + [s[i]] + b;
      SeparatorsAfterPiece(a, s[i], b);
      var rest := Split(b);
      assert ([a] + rest)[1..] == rest;
      [a] + rest
  }

  /** A separator-free piece followed by a separator is split off on its own. */
  lemma SplitAfterPiece(a: string, c: char, b: string)
    requires NoSeparator(a) && IsSeparator(c)
    ensures Split(a + [c] + b) == [a] + Split(b)
  {
    var s := a + [c] + b;
    assert IsSeparator(s[|a|]);
    assert s[..|a|] == a;
    assert FirstSeparator(s) == |a|;
    assert s[|a| + 1..] == b;
  }

  /**
   * The pieces are determined by the text: any separator-free pieces that
   * reassemble `s` around its separators are `Split(s)`.
   */
  lemma {:induction false} SplitUnique(s: string, pieces: seq<string>)
    requires |pieces| == |Separators(s)| + 1
    requires forall i :: 0 <= i < |pieces| ==> NoSeparator(pieces[i])
    requires Interleave(pieces, Separators(s)) == s
    ensures Split(s) == pieces
    decreases |pieces|
  {
    var seps := Separators(s);
    if |seps| > 0 {
      var b := Interleave(pieces[1..], seps[1..]);
      assert s == pieces[0] + [seps[0]] + b;
      SeparatorsAfterPiece(pieces[0], seps[0], b);
      SplitAfterPiece(pieces[0], seps[0], b);
      assert forall i :: 0 <= i < |pieces[1..]| ==> pieces[1..][i] == pieces[i + 1];
      SplitUnique(b, pieces[1..]);
      assert pieces == [pieces[0]] + pieces[1..];
    }
  }

  /** `pieces.map(t => t.trim())`. */
  function TrimEach(pieces: seq<string>): (ts: seq<string>)
    ensures |ts| == |pieces|
    ensures forall i :: 0 <= i < |pieces| ==> ts[i] == Trim(pieces[i])
  {
    seq(|pieces|, i requires 0 <= i < |pieces| => Trim(pieces[i]))
  }

  /** Trimming and filtering a list of pieces handles the first piece, then the rest. */
  lemma TrimEachCons(pieces: seq<string>)
    requires |pieces| > 0
    ensures Seqs.Without(TrimEach(pieces), "")
            == (if Trim(pieces[0]) == "" then [] else [Trim(pieces[0])]) + Seqs.Without(TrimEach(pieces[1..]), "")
  {
    var all := TrimEach(pieces);
    assert all[0] == Trim(pieces[0]) && all[1..] == TrimEach(pieces[1..]);
    Seqs.WithoutCons(all, "");
  }

  /**
   * Trim every piece and keep the non-empty results, in order: exactly the
   * trimmed pieces with the empty ones filtered out.
   */
  function TrimPieces(pieces: seq<string>): (ts: seq<string>)
    requires forall i :: 0 <= i < |pieces| ==> NoSeparator(pieces[i])
    ensures AllTokens(ts)
    ensures ts == Seqs.Without(TrimEach(pieces), "")
    ensures |ts| <= |pieces|
  {
    if |pieces| == 0 then []
    else
      var tail := pieces[1..];
      assert forall i :: 0 <= i < |tail| ==> tail[i] == pieces[i + 1];
      var t := Trim(pieces[0]);
      var rest := TrimPieces(tail);
      TrimKeepsNoSeparator(pieces[0]);
      TrimEachCons(pieces);
      if |t| == 0 then rest
      else
        assert IsToken(t);
        TokensCons(t, rest);
        [t] + rest
  }

  lemma TokensCons(t: string, ts: seq<string>)
    requires IsToken(t) && AllTokens(ts)
    ensures AllTokens([t] + ts)
  {
    assert forall i :: 0 < i <= |ts| ==> ([t] + ts)[i] == ts[i - 1];
  }

  lemma TrimKeepsNoSeparator(p: string)
    requires NoSeparator(p)
    ensures NoSeparator(Trim(p))
  {
    var t := Trim(p);
    var lo := LeadingSpaces(p);
    forall i | 0 <= i < |t| ensures !IsSeparator(t[i]) {
      assert t[i] == p[lo + i];
    }
  }

  /** `normalizeSkills(s)`; a missing text is read as the empty text. */
  function Normalize(s: string): (ts: seq<string>)
    ensures AllTokens(ts)
    ensures ts == Seqs.Without(TrimEach(Split(s)), "")
    ensures AllSpace(s) ==> ts == []
  {
    if AllSpace(s) then
      assert NoSeparator(s) by {
        forall i | 0 <= i < |s| ensures !IsSeparator(s[i]) { assert IsSpace(s[i]); }
      }
      assert Trim(s) == [];
      TrimPieces(Split(s))
    else
      TrimPieces(Split(s))
  }

  /** The separators found in reassembled pieces are the ones put between them. */
  lemma {:induction false} SeparatorsOfInterleave(pieces: seq<string>, seps: seq<char>)
    requires |pieces| == |seps| + 1
    requires forall i :: 0 <= i < |pieces| ==> NoSeparator(pieces[i])
    requires forall k :: 0 <= k < |seps| ==> IsSeparator(seps[k])
    ensures Separators(Interleave(pieces, seps)) == seps
    decreases |seps|
  {
    if |seps| > 0 {
      var b := Interleave(pieces[1..], seps[1..]);
      assert forall i :: 0 <= i < |pieces[1..]| ==> pieces[1..][i] == pieces[i + 1];
      SeparatorsOfInterleave(pieces[1..], seps[1..]);
      SeparatorsAfterPiece(pieces[0], seps[0], b);
    }
  }

  /**
   * `normalizeSkills` on any text: cut at every `,` and `;`, trim every
   * piece, drop the empty ones, keep the rest in order.
   */
  lemma NormalizeInterleave(pieces: seq<string>, seps: seq<char>)
    requires |pieces| == |seps| + 1
    requires forall i :: 0 <= i < |pieces| ==> NoSeparator(pieces[i])
    requires forall k :: 0 <= k < |seps| ==> IsSeparator(seps[k])
    ensures Normalize(Interleave(pieces, seps)) == Seqs.Without(TrimEach(pieces), "")
  {
    SeparatorsOfInterleave(pieces, seps);
    SplitUnique(Interleave(pieces, seps), pieces);
  }

  /** A raw skills text mixing both separators, an empty piece and padding. */
  const MixedSkills := "a,, b ;c"

  lemma MixedSkillsPieces()
    ensures MixedSkills == Interleave(["a", "", " b ", "c"], [',', ',', ';'])
  {
  }

  /** Trimming pointwise determines the whole trimmed list. */
  lemma TrimEachIs(ps: seq<string>, ts: seq<string>)
    requires |ps| == |ts|
    requires forall i :: 0 <= i < |ps| ==> Trim(ps[i]) == ts[i]
    ensures TrimEach(ps) == ts
  {
  }

  /** One space of padding on each side of a token trims away. */
  lemma TrimPadded(b: string)
    requires IsTrimmed(b) && |b| > 0
    ensures Trim(" " + b + " ") == b
  {
    assert AllSpace(" ");
    TrimBetweenSpaces(" ", b, " ");
  }

  /** Trimming four pieces, the second empty and the third padded by one space on each side. */
  lemma TrimFourPieces(a: string, b: string, c: string)
    requires IsTrimmed(a) && IsTrimmed(b) && |b| > 0 && IsTrimmed(c)
    ensures TrimEach([a, "", " " + b + " ", c]) == [a, "", b, c]
  {
    var ps, want := [a, "", " " + b + " ", c], [a, "", b, c];
    forall i | 0 <= i < 4 ensures Trim(ps[i]) == want[i] {
      if i == 1 {
        assert AllSpace(ps[1]);
      } else if i == 2 {
        TrimPadded(b);
      }
    }
    TrimEachIs(ps, want);
  }

  lemma MixedSkillsTrimmed()
    ensures TrimEach(["a", "", " b ", "c"]) == ["a", "", "b", "c"]
  {
    TrimFourPieces("a", "b", "c");
    assert " " + "b" + " " == " b ";
  }

  /**
   * Both separators split, empty pieces are dropped and the white space
   * around a piece is trimmed: "a,, b ;c" gives ["a", "b", "c"].
   */
  lemma MixedSeparatorsExample()
    ensures Normalize(MixedSkills) == ["a", "b", "c"]
  {
    var pieces := ["a", "", " b ", "c"];
    MixedSkillsPieces();
    MixedSkillsClean();
    NormalizeInterleave(pieces, [',', ',', ';']);
    MixedSkillsTrimmed();
    MixedSkillsFiltered();
  }

  lemma MixedSkillsClean()
    ensures forall i :: 0 <= i < 4 ==> NoSeparator(["a", "", " b ", "c"][i])
    ensures forall k :: 0 <= k < 3 ==> IsSeparator([',', ',', ';'][k])
  {
  }

  lemma MixedSkillsFiltered()
    ensures Seqs.Without(["a", "", "b", "c"], "") == ["a", "b", "c"]
  {
  }

  /** `tokens.join(', ')`. */
  /**
   * `join(', ')`: the text starts with the first token, and when no token holds
   * a separator its separators are exactly one comma between each two tokens.
   */
  function Join(ts: seq<string>): (s: string)
    ensures |ts| == 0 ==> s == []
    ensures |ts| == 1 ==> s == ts[0]
    ensures |ts| > 0 ==> ts[0] <= s
    ensures (forall i :: 0 <= i < |ts| ==> NoSeparator(ts[i])) ==>
              |Separators(s)| == (if |ts| == 0 then 0 else |ts| - 1)
              && forall k :: 0 <= k < |Separators(s)| ==> Separators(s)[k] == ','
  {
    if |ts| == 0 then []
    else if |ts| == 1 then ts[0]
    else
      var rest := Join(ts[1..]);
      JoinStep(ts[0], rest);
      ts[0] + ", " + rest
  }

  /** The separators of `a, b` for a separator-free `a`: a comma, then those of `b`. */
  lemma JoinStep(a: string, b: string)
    ensures a <= a + ", " + b
    ensures NoSeparator(a) ==> Separators(a + ", " + b) == [','] + Separators(b)
  {
    if NoSeparator(a) {
      assert a + ", " + b == a + [','] + (" " + b);
      SeparatorsAfterPiece(a, ',', " " + b);
      assert (" " + b)[1..] == b;
    }
  }

  lemma SpacesHaveNoSeparator(w: string)
    requires AllSpace(w)
    ensures NoSeparator(w)
  {
    forall i | 0 <= i < |w| ensures !IsSeparator(w[i]) { assert IsSpace(w[i]); }
  }

  lemma ConcatNoSeparator(a: string, b: string)
    requires NoSeparator(a) && NoSeparator(b)
    ensures NoSeparator(a + b)
  {
    forall i | 0 <= i < |a + b| ensures !IsSeparator((a + b)[i]) {
      if i < |a| { assert (a + b)[i] == a[i]; } else { assert (a + b)[i] == b[i - |a|]; }
    }
  }

  /** One token behind white space normalises to itself. */
  lemma NormalizeOneAfterSpaces(w: string, t: string)
    requires AllSpace(w) && IsToken(t)
    ensures Normalize(w + t) == [t]
  {
    SpacesHaveNoSeparator(w);
    ConcatNoSeparator(w, t);
    TrimAfterSpaces(w, t);
    assert Split(w + t) == [w + t];
    assert TrimPieces([w + t]) == [t];
  }

  lemma CommaSpaceRegroup(w: string, t: string, j: string)
    ensures w + (t + ", " + j) == (w + t) + [','] + ([' '] + j)
  {
  }

  /** The first token behind white space is cut off at the ", " that follows it. */
  lemma NormalizeFirstAfterSpaces(w: string, t: string, j: string)
    requires AllSpace(w) && IsToken(t)
    ensures Normalize(w + (t + ", " + j)) == [t] + Normalize([' '] + j)
  {
    SpacesHaveNoSeparator(w);
    ConcatNoSeparator(w, t);
    CommaSpaceRegroup(w, t, j);
    SplitAfterPiece(w + t, ',', [' '] + j);
    var rest := Split([' '] + j);
    TrimAfterSpaces(w, t);
    assert ([w + t] + rest)[1..] == rest;
  }

  /**
   * Normalising a joined token list, behind any white space, splits it back
   * into exactly those tokens.
   */
  lemma {:induction false} NormalizeJoinAfterSpaces(w: string, ts: seq<string>)
    requires AllSpace(w) && AllTokens(ts)
    ensures Normalize(w + Join(ts)) == ts
    decreases |ts|
  {
    if |ts| == 0 {
      assert w + Join(ts) == w;
    } else if |ts| == 1 {
      NormalizeOneAfterSpaces(w, ts[0]);
    } else {
      TailTokens(ts);
      assert AllSpace([' ']);
      NormalizeJoinAfterSpaces([' '], ts[1..]);
      NormalizeCons(w, ts);
    }
  }

  /** Once the rest of a joined list normalises back, so does the whole list. */
  lemma NormalizeCons(w: string, ts: seq<string>)
    requires AllSpace(w) && |ts| >= 2 && IsToken(ts[0])
    requires Normalize([' '] + Join(ts[1..])) == ts[1..]
    ensures Normalize(w + Join(ts)) == ts
  {
    var tail := ts[1..];
    assert Join(ts) == ts[0] + ", " + Join(tail);
    NormalizeFirstAfterSpaces(w, ts[0], Join(tail));
    Seqs.HeadTail(ts);
  }

  /** The first of a token list is a token and so is the rest. */
  lemma TailTokens(ts: seq<string>)
    requires AllTokens(ts) && |ts| > 0
    ensures IsToken(ts[0]) && AllTokens(ts[1..])
  {
    var tail := ts[1..];
    forall i | 0 <= i < |tail| ensures IsToken(tail[i]) { assert tail[i] == ts[i + 1]; }
  }

  /** Joining a list of normalised skills and normalising again gives the same list. */
  lemma NormalizeJoin(ts: seq<string>)
    requires AllTokens(ts)
    ensures Normalize(Join(ts)) == ts
  {
    NormalizeJoinAfterSpaces([], ts);
    assert [] + Join(ts) == Join(ts);
  }

  /** The stored skills text reads back as the same skill list. */
  lemma NormalizeRoundTrip(s: string)
    ensures Normalize(Join(Normalize(s))) == Normalize(s)
  {
    NormalizeJoin(Normalize(s));
  }
}

=== FILE: test_screen.dfy ===
/**
 * The older career test: a fixed priority chain over which option keys occur
 * among the answers, ending in a fallback career.
 */
module TestScreen {
  import opened Answers
  import Careers

  /** The option keys that point at each career, in the order they are tried. */
  const SoftwareSignals: set<string> := {"tecnico", "maker", "devops"}
  const UxSignals: set<string> := {"criativo", "simux"}
  const DataSignals: set<string> := {"dados", "analitico"}
  const ManagementSignals: set<string> := {"lider", "pessoas"}

  /** Whether some answer value is one of `signals` (`values.includes(...) || ...`). */
  predicate AnySignal(values: seq<string>, signals: set<string>) {
    exists i :: 0 <= i < |values| && values[i] in signals
  }

  /** The heuristic inside `submit`, applied to `Object.values(answers)`. */
  function Heuristic(values: seq<string>): (career: string)
    ensures career in Careers.Recommendations
    ensures AnySignal(values, SoftwareSignals) <==> career == Careers.SoftwareEngineering
    ensures career == Careers.UxDesign
            <==> !AnySignal(values, SoftwareSignals) && AnySignal(values, UxSignals)
    ensures career == Careers.DataScience
            <==> !AnySignal(values, SoftwareSignals) && !AnySignal(values, UxSignals)
                 && AnySignal(values, DataSignals)
    ensures career == Careers.ProjectManagement
            <==> !AnySignal(values, SoftwareSignals) && !AnySignal(values, UxSignals)
                 && !AnySignal(values, DataSignals) && AnySignal(values, ManagementSignals)
    ensures career == Careers.SystemsAnalysis
            <==> !AnySignal(values, SoftwareSignals) && !AnySignal(values, UxSignals)
                 && !AnySignal(values, DataSignals) && !AnySignal(values, ManagementSignals)
  {
    if "tecnico" in values || "maker" in values || "devops" in values then Careers.SoftwareEngineering
    else if "criativo" in values || "simux" in values then Careers.UxDesign
    else if "dados" in values || "analitico" in values then Careers.DataScience
    else if "lider" in values || "pessoas" in values then Careers.ProjectManagement
    else Careers.SystemsAnalysis
  }

  /** Some answer picked one of the option keys in `signals`. */
  predicate Picked(answers: AnswerList, signals: set<string>) {
    exists i :: 0 <= i < |answers| && answers[i].option in signals
  }

  /** The answer values carry a signal exactly when some answer picked it. */
  lemma PickedValues(answers: AnswerList, signals: set<string>)
    ensures AnySignal(Values(answers), signals) <==> Picked(answers, signals)
  {
    var vs := Values(answers);
    if Picked(answers, signals) {
      var i :| 0 <= i < |answers| && answers[i].option in signals;
      assert vs[i] in signals;
    }
  }

  /**
   * The career `submit` stores under "result": the heuristic over the chosen
   * option keys, tried in the order software, UX, data, management.
   */
  function Submit(answers: AnswerList): (career: string)
    ensures career == Heuristic(Values(answers))
    ensures career in Careers.Recommendations
    ensures career == Careers.SoftwareEngineering <==> Picked(answers, SoftwareSignals)
    ensures career == Careers.UxDesign
            <==> !Picked(answers, SoftwareSignals) && Picked(answers, UxSignals)
    ensures career == Careers.DataScience
            <==> !Picked(answers, SoftwareSignals) && !Picked(answers, UxSignals)
                 && Picked(answers, DataSignals)
    ensures career == Careers.ProjectManagement
            <==> !Picked(answers, SoftwareSignals) && !Picked(answers, UxSignals)
                 && !Picked(answers, DataSignals) && Picked(answers, ManagementSignals)
    ensures career == Careers.SystemsAnalysis
            <==> !Picked(answers, SoftwareSignals + UxSignals + DataSignals + ManagementSignals)
    ensures |answers| == 0 ==> career == Careers.SystemsAnalysis
  {
    var vs := Values(answers);
    PickedValues(answers, SoftwareSignals);
    PickedValues(answers, UxSignals);
    PickedValues(answers, DataSignals);
    PickedValues(answers, ManagementSignals);
    PickedUnion(answers);
    Heuristic(vs)
  }

  /** A signal from any of the four groups was picked iff one from some group was. */
  lemma PickedUnion(answers: AnswerList)
    ensures Picked(answers, SoftwareSignals + UxSignals + DataSignals + ManagementSignals)
            <==> Picked(answers, SoftwareSignals) || Picked(answers, UxSignals)
                 || Picked(answers, DataSignals) || Picked(answers, ManagementSignals)
  {
  }

  /** Only which values occur matters: not the question ids, their order or repetitions. */
  lemma OnlyValueSetMatters(a: seq<string>, b: seq<string>)
    requires forall v :: v in a <==> v in b
    ensures Heuristic(a) == Heuristic(b)
  {
    assert forall s :: AnySignal(a, s) <==> AnySignal(b, s) by {
      forall s ensures AnySignal(a, s) <==> AnySignal(b, s) {
        if AnySignal(a, s) {
          var i :| 0 <= i < |a| && a[i] in s;
          assert a[i] in b;
        }
        if AnySignal(b, s) {
          var i :| 0 <= i < |b| && b[i] in s;
          assert b[i] in a;
        }
      }
    }
  }

  /** A software signal wins whatever else is answered. */
  lemma SoftwareDominates(values: seq<string>, extra: seq<string>)
    requires AnySignal(values, SoftwareSignals)
    ensures Heuristic(values + extra) == Careers.SoftwareEngineering
    ensures Heuristic(extra + values) == Careers.SoftwareEngineering
  {
    var i :| 0 <= i < |values| && values[i] in SoftwareSignals;
    assert (values + extra)[i] == values[i];
    assert (extra + values)[|extra| + i] == values[i];
  }

  /** `select` then `submit`: once any question is answered with a software key, the test yields software engineering. */
  lemma SelectSoftwareWins(answers: AnswerList, question: string, key: string)
    requires key in SoftwareSignals
    ensures Submit(Select(answers, question, key)) == Careers.SoftwareEngineering
  {
    var r := Select(answers, question, key);
    var i :| 0 <= i < |r| && r[i] == Entry(question, key);
    assert r[i].option in SoftwareSignals;
  }
}

=== FILE: text.dfy ===
/**
 * The JavaScript string primitives the screens rely on: white space as
 * `String.prototype.trim` and the regular-expression class `\s` see it, `trim`
 * itself, `length` (which counts UTF-16 code units, not characters) and the
 * decimal rendering of an integer by `Number.prototype.toString`.
 */
module Text {

  /** ECMAScript WhiteSpace and LineTerminator code points. */
  predicate IsSpace(c: char) {
    var n := c as int;
    n == 0x09 || n == 0x0A || n == 0x0B || n == 0x0C || n == 0x0D || n == 0x20
    || n == 0xA0 || n == 0x1680 || (0x2000 <= n <= 0x200A) || n == 0x2028
    || n == 0x2029 || n == 0x202F || n == 0x205F || n == 0x3000 || n == 0xFEFF
  }

  predicate AllSpace(s: string) {
    forall i :: 0 <= i < |s| ==> IsSpace(s[i])
  }

  predicate NoSpace(s: string) {
    forall i :: 0 <= i < |s| ==> !IsSpace(s[i])
  }

  /** Neither the first nor the last character is white space. */
  predicate IsTrimmed(s: string) {
    |s| == 0 || (!IsSpace(s[0]) && !IsSpace(s[|s| - 1]))
  }

  /** How many white-space characters `trim` drops at the front. */
  function LeadingSpaces(s: string): (k: nat)
    ensures k <= |s|
    ensures forall i :: 0 <= i < k ==> IsSpace(s[i])
    ensures k < |s| ==> !IsSpace(s[k])
  {
    if |s| > 0 && IsSpace(s[0]) then
      var k := 1 + LeadingSpaces(s[1..]);
      assert forall i :: 1 <= i < |s| ==> s[i] == s[1..][i - 1];
      k
    else 0
  }

  /** How many white-space characters `trim` drops at the back. */
  function TrailingSpaces(s: string): (k: nat)
    ensures k <= |s|
    ensures forall i :: |s| - k <= i < |s| ==> IsSpace(s[i])
    ensures k < |s| ==> !IsSpace(s[|s| - 1 - k])
  {
    if |s| > 0 && IsSpace(s[|s| - 1]) then 1 + TrailingSpaces(s[..|s| - 1]) else 0
  }

  /** `String.prototype.trim`: the text between the leading and the trailing white space. */
  function Trim(s: string): (r: string)
    ensures IsTrimmed(r)
    ensures LeadingSpaces(s) + |r| <= |s| && r == s[LeadingSpaces(s)..LeadingSpaces(s) + |r|]
    ensures |r| == 0 <==> AllSpace(s)
    ensures AllSpace(s[..LeadingSpaces(s)]) && AllSpace(s[LeadingSpaces(s) + |r|..])
    ensures IsTrimmed(s) ==> r == s
  {
    var lo := LeadingSpaces(s);
    var a := s[lo..];
    var hi := |a| - TrailingSpaces(a);
    if lo == |s| then
      []
    else
      assert a[0] == s[lo];
      assert hi > 0;
      assert a[..hi] == s[lo..lo + hi];
      a[..hi]
  }

  /**
   * `trim` is characterised by its input's shape: a non-empty text without
   * white space at either end, wrapped in white space, trims to that text.
   */
  lemma TrimBetweenSpaces(w1: string, t: string, w2: string)
    requires AllSpace(w1) && AllSpace(w2) && IsTrimmed(t) && |t| > 0
    ensures Trim(w1 + t + w2) == t
  {
    var s := w1 + t + w2;
    var lo := LeadingSpaces(s);
    var r := Trim(s);
    assert s[|w1|] == t[0];
    assert lo == |w1|;
    assert r == s[|w1|..|w1| + |t|] == t;
  }

  /** White space in front of a trimmed text is exactly what `trim` removes. */
  lemma TrimAfterSpaces(w: string, t: string)
    requires AllSpace(w) && IsTrimmed(t) && |t| > 0
    ensures Trim(w + t) == t
  {
    TrimBetweenSpaces(w, t, []);
    assert w + t + [] == w + t;
  }

  /** Number of UTF-16 code units: what JavaScript's `length` reports. */
  function Utf16Length(s: string): (n: nat)
    ensures |s| <= n <= 2 * |s|
    ensures NoAstral(s) ==> n == |s|
    ensures |s| == 1 ==> n == CodeUnits(s[0])
  {
    if |s| == 0 then 0
    else CodeUnits(s[0]) + Utf16Length(s[1..])
  }

  /** A character outside the Basic Multilingual Plane takes a surrogate pair. */
  function CodeUnits(c: char): (k: nat)
    ensures k == 1 || k == 2
    ensures k == 2 <==> c as int >= 0x10000
  {
    if c as int >= 0x10000 then 2 else 1
  }

  /**
   * The length of a concatenation is the sum of the lengths; with the
   * one-character case this fixes the length of every string as its
   * characters' code-unit counts added up.
   */
  lemma {:induction false} Utf16LengthAppend(a: string, b: string)
    ensures Utf16Length(a + b) == Utf16Length(a) + Utf16Length(b)
    decreases |a|
  {
    if |a| > 0 {
      assert (a + b)[1..] == a[1..] + b;
      assert (a + b)[0] == a[0];
      Utf16LengthAppend(a[1..], b);
    } else {
      assert a + b == b;
    }
  }

  /** The positions of the characters that take a surrogate pair. */
  function AstralPositions(s: string): set<nat> {
    set i: nat | i < |s| && s[i] as int >= 0x10000
  }

  /**
   * The code-unit count of any text: one per character plus one more for
   * each character outside the Basic Multilingual Plane.
   */
  lemma {:induction false} Utf16LengthCount(s: string)
    ensures Utf16Length(s) == |s| + |AstralPositions(s)|
    decreases |s|
  {
    if |s| == 0 {
      assert AstralPositions(s) == {};
    } else {
      var front, k := s[..|s| - 1], |s| - 1;
      assert s == front + [s[k]];
      Utf16LengthCount(front);
      Utf16LengthAppend(front, [s[k]]);
      if s[k] as int >= 0x10000 {
        assert AstralPositions(s) == AstralPositions(front) + {k};
      } else {
        assert AstralPositions(s) == AstralPositions(front);
      }
    }
  }

  /** Every character lies in the Basic Multilingual Plane. */
  predicate NoAstral(s: string) {
    forall i :: 0 <= i < |s| ==> s[i] as int < 0x10000
  }

  /** A word of ASCII letters (and the few signs between 'Z' and 'a') has no white space and trims to itself. */
  lemma LetterWord(s: string)
    requires forall i :: 0 <= i < |s| ==> 'A' <= s[i] <= 'z'
    ensures NoSpace(s) && IsTrimmed(s) && Trim(s) == s && Utf16Length(s) == |s|
  {
  }

  /** The character of a decimal digit. */
  function DigitChar(d: nat): (c: char)
    requires d < 10
    ensures '0' <= c <= '9'
  {
    ('0' as int + d) as char
  }

  /** The digit a character stands for. */
  function DigitValue(c: char): (d: nat)
    requires '0' <= c <= '9'
    ensures d < 10 && DigitChar(d) == c
  {
    c as int - '0' as int
  }

  /** Reading a rendered digit gives the digit back. */
  lemma DigitRoundTrip(d: nat)
    requires d < 10
    ensures DigitValue(DigitChar(d)) == d
  {
  }

  predicate AllDigits(s: string) {
    forall i :: 0 <= i < |s| ==> '0' <= s[i] <= '9'
  }

  /** Decimal digits of a natural number, most significant first, without leading zeros. */
  function NatToString(n: nat): (s: string)
    ensures |s| >= 1 && AllDigits(s)
    ensures |s| > 1 ==> s[0] != '0'
    ensures n < 10 <==> |s| == 1
    ensures n < 100 <==> |s| <= 2
  {
    if n < 10 then [DigitChar(n)] else NatToString(n / 10) + [DigitChar(n % 10)]
  }

  /** Value of a string of decimal digits. */
  function ParseNat(s: string): (n: nat)
    requires AllDigits(s)
  {
    if |s| == 0 then 0 else 10 * ParseNat(s[..|s| - 1]) + DigitValue(s[|s| - 1])
  }

  /** Reading the rendered digits back gives the number again. */
  lemma {:induction false} ParseNatToString(n: nat)
    ensures ParseNat(NatToString(n)) == n
  {
    if n >= 10 {
      var front := NatToString(n / 10);
      var s := front + [DigitChar(n % 10)];
      assert NatToString(n) == s;
      assert s[..|s| - 1] == front;
      ParseNatToString(n / 10);
      DigitRoundTrip(n % 10);
      assert ParseNat(s) == 10 * ParseNat(front) + DigitValue(DigitChar(n % 10));
    }
  }

  /** A digit string without a leading zero reads as a positive number. */
  lemma {:induction false} ParsePositive(s: string)
    requires AllDigits(s) && |s| >= 1 && s[0] != '0'
    ensures ParseNat(s) > 0
    decreases |s|
  {
    if |s| > 1 {
      ParsePositive(s[..|s| - 1]);
    }
  }

  /**
   * Decimal text is canonical: a digit string without a leading zero is the
   * rendering of the number it reads as, so no other text renders that number.
   */
  lemma {:induction false} NatToStringUnique(s: string)
    requires AllDigits(s) && |s| >= 1 && (|s| > 1 ==> s[0] != '0')
    ensures NatToString(ParseNat(s)) == s
    decreases |s|
  {
    var n := ParseNat(s);
    var last := DigitValue(s[|s| - 1]);
    if |s| == 1 {
      assert n == last;
      assert NatToString(n) == [DigitChar(last)];
    } else {
      var front := s[..|s| - 1];
      assert front[0] == s[0];
      ParsePositive(front);
      NatToStringUnique(front);
      assert n == 10 * ParseNat(front) + last;
      assert n / 10 == ParseNat(front) && n % 10 == last;
      assert NatToString(n) == front + [DigitChar(last)];
      assert s == front + [s[|s| - 1]];
    }
  }

  /** `Number.prototype.toString` on an integer: a minus sign before the digits of a negative one. */
  function IntToString(n: int): (s: string)
    ensures n >= 0 ==> AllDigits(s) && ParseNat(s) == n && s == NatToString(n)
    ensures n < 0 ==> |s| >= 2 && s[0] == '-' && AllDigits(s[1..]) && ParseNat(s[1..]) == -n
    ensures n < 0 ==> s[1..] == NatToString(-n) && s == "-" + NatToString(-n)
    ensures n >= 0 && |s| > 1 ==> s[0] != '0'
    ensures n < 0 && |s| > 2 ==> s[1] != '0'
  {
    if n >= 0 then
      ParseNatToString(n);
      NatToString(n)
    else
      ParseNatToString(-n);
      assert (['-'] + NatToString(-n))[1..] == NatToString(-n);
      ['-'] + NatToString(-n)
  }
}

=== FILE: validate_profile.dfy ===
/**
 * The second validation screen. Its validator is the same as the one behind
 * the "ValidateProfile" route except for progress: only a value outside [0, 1]
 * is an error. Its status reads VALIDADO as soon as no critical check fails.
 */
module ValidateProfile {
  import opened Wrappers
  import opened Text
  import Skills
  import opened Profile
  import Strict = ValidateProfileScreen

  /** Progress: only a value outside [0, 1] is an error; there is no 10% floor. */
  function ProgressIssue(progress: Option<real>): (i: Option<Issue>)
    ensures i.Some? <==> progress.Some? && (progress.value < 0.0 || progress.value > 1.0)
    ensures i.Some? ==> i.value == OutOfRange
  {
    match progress
    case None => None
    case Some(p) => if p < 0.0 || p > 1.0 then Some(OutOfRange) else None
  }

  function Errors(d: Draft): (errors: map<Field, Issue>)
    ensures NameField in errors <==>
      Utf16Length(TrimmedName(d)) < 2 || Utf16Length(TrimmedName(d)) > 50
    ensures RoleField in errors <==> Utf16Length(TrimmedRole(d)) < 3
    ensures SkillsField in errors <==> |SkillList(d)| == 0 || |SkillList(d)| > 10
    ensures AreasField in errors <==> |AreaList(d)| == 0 || |AreaList(d)| > 5
    ensures ProgressField in errors <==>
      d.progress.Some? && (d.progress.value < 0.0 || d.progress.value > 1.0)
    ensures NameField in errors ==> errors[NameField] == NameIssue(TrimmedName(d)).value
    ensures RoleField in errors ==> errors[RoleField] == RoleIssue(TrimmedRole(d)).value
    ensures SkillsField in errors ==> errors[SkillsField] == SkillsIssue(|SkillList(d)|).value
    ensures AreasField in errors ==> errors[AreasField] == AreasIssue(|AreaList(d)|).value
    ensures ProgressField in errors ==> errors[ProgressField] == ProgressIssue(d.progress).value
  {
    Collect(
      NameIssue(TrimmedName(d)),
      RoleIssue(TrimmedRole(d)),
      SkillsIssue(|SkillList(d)|),
      AreasIssue(|AreaList(d)|),
      ProgressIssue(d.progress))
  }

  /** `validateProfile(draft)` of this screen. */
  function Validate(d: Draft): (r: Report)
    ensures r.errors == Errors(d) && r.normalized == Normalized(d)
    ensures NameField in r.errors <==>
      Utf16Length(TrimmedName(d)) < 2 || Utf16Length(TrimmedName(d)) > 50
    ensures RoleField in r.errors <==> Utf16Length(TrimmedRole(d)) < 3
    ensures SkillsField in r.errors <==> |SkillList(d)| == 0 || |SkillList(d)| > 10
    ensures AreasField in r.errors <==> |AreaList(d)| == 0 || |AreaList(d)| > 5
    ensures ProgressField in r.errors <==>
      d.progress.Some? && (d.progress.value < 0.0 || d.progress.value > 1.0)
    ensures NameField in r.errors ==> r.errors[NameField] == NameIssue(TrimmedName(d)).value
    ensures RoleField in r.errors ==> r.errors[RoleField] == RoleIssue(TrimmedRole(d)).value
    ensures SkillsField in r.errors ==> r.errors[SkillsField] == SkillsIssue(|SkillList(d)|).value
    ensures AreasField in r.errors ==> r.errors[AreasField] == AreasIssue(|AreaList(d)|).value
    ensures ProgressField in r.errors ==> r.errors[ProgressField] == ProgressIssue(d.progress).value
    ensures r.ok <==> r.errors == map[]
    ensures r.normalized.name == TrimmedName(d) && r.normalized.role == TrimmedRole(d)
    ensures Skills.Normalize(r.normalized.skills) == SkillList(d)
    ensures r.normalized.skills == Skills.Join(SkillList(d))
    ensures r.normalized.progress.Some? && 0.1 <= r.normalized.progress.value <= 1.0
    ensures d.progress.None? ==> r.normalized.progress == Some(0.1)
    ensures d.progress.Some? ==> r.normalized.progress == Some(Clamp(0.1, d.progress.value))
    ensures |r.normalized.areas| <= 5 && |r.normalized.areas| <= |AreaList(d)|
    ensures r.normalized.areas == AreaList(d)[..|r.normalized.areas|]
    ensures |AreaList(d)| >= 5 ==> |r.normalized.areas| == 5
    ensures |AreaList(d)| <= 5 ==> r.normalized.areas == AreaList(d)
    ensures r.normalized.areas == FirstFive(AreaList(d))
  {
    var errors := Errors(d);
    Report(errors == map[], errors, Normalized(d))
  }

  datatype Status = Validated | Pending

  /** The summary status: VALIDADO iff no critical check fails. */
  function StatusOf(r: Report): (s: Status)
    ensures s == Validated <==> r.errors.Keys <= {ProgressField}
  {
    CheckCounts(r.errors);
    if CountCritical(Checks(r.errors)) == 0 then Validated else Pending
  }

  /** The two screens normalise every draft to the same record. */
  lemma SameNormalization(d: Draft)
    ensures Validate(d).normalized == Strict.Validate(d).normalized
  {
  }

  /** They flag the same fields, progress aside. */
  lemma SameCriticalErrors(d: Draft)
    ensures Validate(d).errors.Keys - {ProgressField} == Strict.Validate(d).errors.Keys - {ProgressField}
  {
    var a, b := Errors(d), Strict.Errors(d);
    assert NameField in a <==> NameField in b;
    assert RoleField in a <==> RoleField in b;
    assert SkillsField in a <==> SkillsField in b;
    assert AreasField in a <==> AreasField in b;
    SameKeysButProgress(a, b);
  }

  /** A draft the stricter screen accepts is accepted here too. */
  lemma StrictOkImpliesOk(d: Draft)
    requires Strict.Validate(d).ok
    ensures Validate(d).ok
  {
  }

  /** Name, role, skills and areas all within the rules both screens share. */
  predicate SharedFieldsValid(d: Draft) {
    2 <= Utf16Length(TrimmedName(d)) <= 50 && Utf16Length(TrimmedRole(d)) >= 3
    && 1 <= |SkillList(d)| <= 10 && 1 <= |AreaList(d)| <= 5
  }

  /**
   * A draft whose shared fields are valid and whose progress lies in [0, 0.1)
   * is accepted here, reads VALIDADO, and is refused by the stricter screen
   * for its progress alone.
   */
  lemma ProgressFloorDisagreement(d: Draft)
    requires SharedFieldsValid(d)
    requires d.progress.Some? && 0.0 <= d.progress.value < 0.1
    ensures Validate(d).ok && StatusOf(Validate(d)) == Validated
    ensures !Strict.Validate(d).ok && Strict.Validate(d).errors.Keys == {ProgressField}
  {
    NoErrorsHere(d);
    OnlyProgressThere(d);
  }

  /** A draft meeting the shared rules with progress in [0, 1] has no error on this screen. */
  lemma NoErrorsHere(d: Draft)
    requires SharedFieldsValid(d)
    requires d.progress.Some? && 0.0 <= d.progress.value <= 1.0
    ensures Errors(d) == map[]
  {
    var e := Errors(d);
    forall f ensures f !in e {
      match f
      case NameField =>
      case RoleField =>
      case SkillsField =>
      case AreasField =>
      case ProgressField =>
    }
  }

  /** The same draft with progress under 0.1 fails only progress on the floor-checking screen. */
  lemma OnlyProgressThere(d: Draft)
    requires SharedFieldsValid(d)
    requires d.progress.Some? && 0.0 <= d.progress.value < 0.1
    ensures Strict.Errors(d).Keys == {ProgressField}
  {
    var se := Strict.Errors(d);
    forall f ensures f in se <==> f == ProgressField {
      match f
      case NameField =>
      case RoleField =>
      case SkillsField =>
      case AreasField =>
      case ProgressField =>
    }
  }

  /** The valid draft with 5% progress used to tell the two screens apart. */
  const LowProgressDraft := Draft(Some("Ana"), Some("Dev"), Some("Java"), Some(0.05), Some(["DevOps"]))

  /** A letters-only name of 2..50 letters and role of 3 or more, one letters-only skill and one area pass the shared rules. */
  lemma LetterDraftValid(d: Draft)
    requires d.name.Some? && 2 <= |d.name.value| <= 50
    requires d.role.Some? && |d.role.value| >= 3
    requires d.skills.Some? && |d.skills.value| > 0 && d.areas.Some? && |d.areas.value| == 1
    requires forall i :: 0 <= i < |d.name.value| ==> 'A' <= d.name.value[i] <= 'z'
    requires forall i :: 0 <= i < |d.role.value| ==> 'A' <= d.role.value[i] <= 'z'
    requires forall i :: 0 <= i < |d.skills.value| ==> 'A' <= d.skills.value[i] <= 'z'
    ensures SharedFieldsValid(d)
  {
    LetterWord(d.name.value);
    LetterWord(d.role.value);
    Skills.LetterToken(d.skills.value);
    Skills.NormalizeJoin([d.skills.value]);
  }

  /** With 5% progress and otherwise valid fields, only the stricter screen objects. */
  lemma LowProgressDisagreement()
    ensures Validate(LowProgressDraft).ok
    ensures StatusOf(Validate(LowProgressDraft)) == Validated
    ensures !Strict.Validate(LowProgressDraft).ok
    ensures Strict.Validate(LowProgressDraft).errors.Keys == {ProgressField}
  {
    LetterDraftValid(LowProgressDraft);
    ProgressFloorDisagreement(LowProgressDraft);
  }
}

=== FILE: validate_profile_screen.dfy ===
/**
 * The validation screen the profile form redirects to (route "ValidateProfile").
 * Its validator adds an advisory "too low" error for progress under 10%, and its
 * status reads VALIDADO only when every check, progress included, passes.
 */
module ValidateProfileScreen {
  import opened Wrappers
  import opened Text
  import Skills
  import opened Profile

  /** Progress: out of [0, 1] is an error, and so is anything under 0.1. */
  function ProgressIssue(progress: Option<real>): (i: Option<Issue>)
    ensures i.Some? <==> progress.Some? && (progress.value < 0.1 || progress.value > 1.0)
    ensures i == Some(TooLow) <==> progress.Some? && 0.0 <= progress.value < 0.1
  {
    match progress
    case None => None
    case Some(p) =>
      if p < 0.0 || p > 1.0 then Some(OutOfRange)
      else if p < 0.1 then Some(TooLow)
      else None
  }

  /** The `errors` record of `validateProfile`. */
  function Errors(d: Draft): (errors: map<Field, Issue>)
    ensures NameField in errors <==>
      Utf16Length(TrimmedName(d)) < 2 || Utf16Length(TrimmedName(d)) > 50
    ensures RoleField in errors <==> Utf16Length(TrimmedRole(d)) < 3
    ensures SkillsField in errors <==> |SkillList(d)| == 0 || |SkillList(d)| > 10
    ensures AreasField in errors <==> |AreaList(d)| == 0 || |AreaList(d)| > 5
    ensures ProgressField in errors <==>
      d.progress.Some? && (d.progress.value < 0.1 || d.progress.value > 1.0)
    ensures NameField in errors ==> errors[NameField] == NameIssue(TrimmedName(d)).value
    ensures RoleField in errors ==> errors[RoleField] == RoleIssue(TrimmedRole(d)).value
    ensures SkillsField in errors ==> errors[SkillsField] == SkillsIssue(|SkillList(d)|).value
    ensures AreasField in errors ==> errors[AreasField] == AreasIssue(|AreaList(d)|).value
    ensures ProgressField in errors ==> errors[ProgressField] == ProgressIssue(d.progress).value
  {
    Collect(
      NameIssue(TrimmedName(d)),
      RoleIssue(TrimmedRole(d)),
      SkillsIssue(|SkillList(d)|),
      AreasIssue(|AreaList(d)|),
      ProgressIssue(d.progress))
  }

  /** `validateProfile(draft)`: the errors, whether there are none, and the normalised record. */
  function Validate(d: Draft): (r: Report)
    ensures r.errors == Errors(d) && r.normalized == Normalized(d)
    ensures NameField in r.errors <==>
      Utf16Length(TrimmedName(d)) < 2 || Utf16Length(TrimmedName(d)) > 50
    ensures RoleField in r.errors <==> Utf16Length(TrimmedRole(d)) < 3
    ensures SkillsField in r.errors <==> |SkillList(d)| == 0 || |SkillList(d)| > 10
    ensures AreasField in r.errors <==> |AreaList(d)| == 0 || |AreaList(d)| > 5
    ensures ProgressField in r.errors <==>
      d.progress.Some? && (d.progress.value < 0.1 || d.progress.value > 1.0)
    ensures NameField in r.errors ==> r.errors[NameField] == NameIssue(TrimmedName(d)).value
    ensures RoleField in r.errors ==> r.errors[RoleField] == RoleIssue(TrimmedRole(d)).value
    ensures SkillsField in r.errors ==> r.errors[SkillsField] == SkillsIssue(|SkillList(d)|).value
    ensures AreasField in r.errors ==> r.errors[AreasField] == AreasIssue(|AreaList(d)|).value
    ensures ProgressField in r.errors ==> r.errors[ProgressField] == ProgressIssue(d.progress).value
    ensures r.ok <==> r.errors == map[]
    ensures r.normalized.name == TrimmedName(d) && r.normalized.role == TrimmedRole(d)
    ensures Skills.Normalize(r.normalized.skills) == SkillList(d)
    ensures r.normalized.skills == Skills.Join(SkillList(d))
    ensures r.normalized.progress.Some? && 0.1 <= r.normalized.progress.value <= 1.0
    ensures d.progress.None? ==> r.normalized.progress == Some(0.1)
    ensures d.progress.Some? ==> r.normalized.progress == Some(Clamp(0.1, d.progress.value))
    ensures |r.normalized.areas| <= 5 && |r.normalized.areas| <= |AreaList(d)|
    ensures r.normalized.areas == AreaList(d)[..|r.normalized.areas|]
    ensures |AreaList(d)| >= 5 ==> |r.normalized.areas| == 5
    ensures |AreaList(d)| <= 5 ==> r.normalized.areas == AreaList(d)
    ensures r.normalized.areas == FirstFive(AreaList(d))
  {
    var errors := Errors(d);
    Report(errors == map[], errors, Normalized(d))
  }

  /**
   * Validating the normalised record returns that record again, and reports
   * no field the original draft did not already fail.
   */
  lemma Renormalize(d: Draft)
    ensures var n := Validate(d).normalized;
      Validate(ToDraft(n)).normalized == n
      && Validate(ToDraft(n)).errors.Keys <= Validate(d).errors.Keys
  {
    RenormalizeRecord(d);
    RenormalizeErrors(d);
  }

  lemma RenormalizeErrors(d: Draft)
    ensures Errors(ToDraft(Normalized(d))).Keys <= Errors(d).Keys
  {
    var d2 := ToDraft(Normalized(d));
    RenormalizedFields(d);
    var e, e2 := Errors(d), Errors(d2);
    forall f | f in e2 ensures f in e {
      match f
      case NameField =>
      case RoleField =>
      case SkillsField =>
      case AreasField =>
      case ProgressField => assert false;
    }
  }

  datatype Status = Validated | Pending

  /** The label of the save button. */
  datatype SaveAction = ApplyAndSave | ApplyCorrections | SaveWithWarnings

  /** The summary line and the save button of the screen. */
  datatype Summary = Summary(status: Status, failed: nat, critical: nat, action: SaveAction)

  function Summarize(r: Report): (s: Summary)
    ensures s.status == Validated <==> r.errors == map[]
    ensures s.failed == |r.errors|
    ensures s.critical == |r.errors.Keys - {ProgressField}|
    ensures s.action == ApplyAndSave <==> r.errors == map[]
    ensures s.action == SaveWithWarnings <==> r.errors.Keys == {ProgressField}
    ensures s.action == ApplyCorrections <==> exists f :: f in r.errors && IsCritical(f)
  {
    var checks := Checks(r.errors);
    CheckCounts(r.errors);
    var allOk := CountFailed(checks) == 0;
    var critical := CountCritical(checks);
    assert r.errors.Keys == {ProgressField} <==> r.errors != map[] && r.errors.Keys <= {ProgressField} by {
      if r.errors != map[] && r.errors.Keys <= {ProgressField} {
        var f :| f in r.errors;
        assert f == ProgressField;
      }
    }
    Summary(
      if allOk then Validated else Pending,
      CountFailed(checks),
      critical,
      if allOk then ApplyAndSave else if critical > 0 then ApplyCorrections else SaveWithWarnings)
  }

  /** A progress-only error never blocks: the screen offers to save with warnings. */
  lemma ProgressOnlyIsAdvisory(d: Draft)
    requires Validate(d).errors.Keys == {ProgressField}
    ensures Summarize(Validate(d)).critical == 0
    ensures Summarize(Validate(d)).action == SaveWithWarnings
    ensures !Validate(d).ok
  {
    assert ProgressField in Validate(d).errors;
  }

  /** The alert `applyAndSave` shows after storing. */
  datatype Alert = SavedCleanly | SavedWithAdjustments(count: nat)

  /** What pressing the save button does: the record stored under "profile" and the alert. */
  datatype Saved = Saved(stored: Profile, alert: Alert)

  /**
   * `applyAndSave`, run whatever label the button shows: the normalised record
   * is stored even when critical checks fail, and the alert then counts them.
   */
  function Press(r: Report): (o: Saved)
    ensures o.stored == r.normalized
    ensures o.alert.SavedWithAdjustments? <==> Summarize(r).action == ApplyCorrections
    ensures o.alert.SavedWithAdjustments? ==>
              o.alert.count == |r.errors.Keys - {ProgressField}| && o.alert.count > 0
    ensures o.alert == SavedCleanly <==> forall f :: f in r.errors ==> !IsCritical(f)
  {
    var critical := Summarize(r).critical;
    Saved(r.normalized, if critical > 0 then SavedWithAdjustments(critical) else SavedCleanly)
  }

  /** A draft failing a critical check is still saved, normalised, with an adjustments alert. */
  lemma CriticalErrorsStillSave(d: Draft, f: Field)
    requires f in Validate(d).errors && IsCritical(f)
    ensures Press(Validate(d)).stored == Normalized(d)
    ensures Press(Validate(d)).alert.SavedWithAdjustments?
  {
  }
}

=== FILE: wrappers.dfy ===
/** Optional values: a JavaScript `undefined`/`null` or a missing key is `None`. */
module Wrappers {

  datatype Option<+T> = None | Some(value: T) {

    /** The `??` operator: the value when present, otherwise `default`. */
    function GetOr(default: T): (r: T)
      ensures Some? ==> r == value
      ensures None? ==> r == default
    {
      match this
      case Some(v) => v
      case None => default
    }
  }
}
